=== FILE: README.md ===
# Spots list and grid core, modelled in Dafny

Spots renders lists and grids from declarative component descriptors. This
project models four pieces of its sequential logic, all about the ordered
`items` of a component:

- the list-mutation engine of `ListAdapter` (iOS): `append`, `insert`,
  `prepend`, the four `delete`s, `update`, `reload`, the completion fan-in of
  `process` and the sequencing of `reloadIfNeeded`;
- the item differ `Item.evaluate` and change aggregator `Item.processChanges`,
  as far as their unit test pins them down;
- the `GridRegistry` (macOS): registered views, the default entry, `make`
  and its view cache, `purge`;
- layout resolution of `GridSpot.setupLayout` / `configureLayoutInsets`
  (macOS), and `scrollTo` / `layout(size:)` of `Listable` (iOS).

Every operation is a pure function (or, for `scrollTo`, a method with loops).
A list operation returns an `Outcome`: the new items, the log of abstract view
operations (`Insert`, `Delete`, `Reload`, `Configure`, `HeightUpdate`, …) and
the number of times the caller's completion fired.

Modules and files:

| file | module | models |
|---|---|---|
| wrappers.dfy | Wrappers | Swift's `Optional` |
| items.dfy | Items | `Item`, `CGSize`, height sums |
| list_adapter.dfy | ListAdapter | append/insert/prepend/delete/update/reload |
| list_process.dfy | ListProcess | `process`, `reloadIfNeeded`, and how they fit the differ |
| diff.dfy | Diff | `ItemDiff`, `ItemChanges`, `evaluate`, `processChanges` |
| grid_registry.dfy | GridRegistry | `GridRegistry` |
| grid_spot.dfy | GridSpot | `LayoutType`, meta keys and defaults, `setupLayout` |
| listable.dfy | Listable | `scrollTo`, `layout(size:)` |

Assumptions about code this model does not contain:

- Blocks queued with `Dispatch.mainQueue` run at once, in program order.
- `updateHeight` runs its closure exactly once. The table view's
  `process(…, updateDataSource:)` runs its completion exactly once.
- `configureItem(index)` is the function parameter `cfg`. It replaces the
  item at `index` by `cfg` of it and may change its size. Whether a cell is
  on screen, whether it is a composite, and what `configure(&item)` of such
  a cell does are fields of the `ViewOracle` parameter.
- `refreshIndexes` sets each item's stored `index` to its position.
- The raw values of `RegistryType` are taken to be `"regular"` and `"nib"`.
  The file that defines them is not part of this model.
  `CacheKeyDiffers` and `CacheKeyInjective` need only that both raw values
  are non-empty and begin with different letters. The concrete input of
  `MakeServesForeignView` (identifier `"regularfoo"`) and the first Findings
  row rely on the raw value being exactly `"regular"`.
- Item equality (for `delete(item)`) is structural equality of the model's
  `Item`.

## Model

| member | source | states |
|---|---|---|
| ListAdapter.AppendItem | Sources/iOS/Extensions/ListAdapter+Extensions+iOS.swift:22-34 | items become old ++ [configured item]; `Insert([|old|])` is issued; completion fires once |
| ListAdapter.AppendItems | Sources/iOS/Extensions/ListAdapter+Extensions+iOS.swift:41-58 | old items kept as prefix, new ones follow in order, each configured; inserted indices are m, m+1, …, m+k-1 ascending (m = old count); completion fires once |
| ListAdapter.InsertItem | Sources/iOS/Extensions/ListAdapter+Extensions+iOS.swift:66-75 | requires 0 <= index <= count; item placed at index, prefix unchanged, tail shifted by one; `Insert([index])`; completion once |
| ListAdapter.Prepend | Sources/iOS/Extensions/ListAdapter+Extensions+iOS.swift:82-99 | new items come first in their own order (configured), old items follow unchanged; inserted indices run k-1 down to 0, and the rows are configured in that same descending order |
| ListAdapter.FirstIndexOf | Sources/iOS/Extensions/ListAdapter+Extensions+iOS.swift:107 | nil exactly when no element equals the item; otherwise the first equal position |
| ListAdapter.DeleteItem | Sources/iOS/Extensions/ListAdapter+Extensions+iOS.swift:106-118 | no equal element: items unchanged, nothing issued, completion once; else exactly one copy (the first) removed and `Delete([thatIndex])` issued |
| ListAdapter.DeleteItems | Sources/iOS/Extensions/ListAdapter+Extensions+iOS.swift:125-140 | as written: the items are APPENDED and rows count+i are reported deleted |
| ListAdapter.DeleteItemsGrows | Sources/iOS/Extensions/ListAdapter+Extensions+iOS.swift:129-132 | as written, deleting a non-empty list of items lengthens the list and reports only rows beyond the old end |
| ListAdapter.DeleteItemsCorrected | Sources/iOS/Extensions/ListAdapter+Extensions+iOS.swift:125-140 | corrected: no given item remains; a row is reported deleted exactly when it held a given item; kept + reported = old count; the kept rows are the original rows at the unreported positions, in order |
| ListAdapter.DeleteIndex | Sources/iOS/Extensions/ListAdapter+Extensions+iOS.swift:147-155 | requires index in range; the element at index is removed, others keep their order; `Delete([index])` |
| ListAdapter.DeleteIndexes | Sources/iOS/Extensions/ListAdapter+Extensions+iOS.swift:162-170 | requires each index in range of the array as already shrunk; length drops by the number of indices; indices reported unchanged |
| ListAdapter.DeleteIndexesDescending | Sources/iOS/Extensions/ListAdapter+Extensions+iOS.swift:164 | removing strictly decreasing in-range indices one after another removes exactly those positions of the original list |
| ListAdapter.RemoveInTurnPositions | Sources/iOS/Extensions/ListAdapter+Extensions+iOS.swift:164 | for any indices, the j-th remaining row is the original row at the position found by undoing the removals, last first, each shifting positions at or above its index up by one |
| ListAdapter.DeleteIndexesAscendingMismatch | Sources/iOS/Extensions/ListAdapter+Extensions+iOS.swift:162-170 | as written, ascending indices [0, 1] on [a, b, c] keep b while the view is told to delete rows 0 and 1 and so keeps c |
| ListAdapter.DeleteIndexesCorrected | Sources/iOS/Extensions/ListAdapter+Extensions+iOS.swift:162-170 | corrected: the rows removed are exactly the reported rows of the list as it was, whatever the order of the indices |
| ListAdapter.DeleteIndexesCorrectedAgrees | Sources/iOS/Extensions/ListAdapter+Extensions+iOS.swift:162-170 | for strictly decreasing indices the correction and the source agree |
| ListAdapter.InsertThenDeleteIndex | Sources/iOS/Extensions/ListAdapter+Extensions+iOS.swift:66-70 | `delete(index)` undoes `insert(item, index)` |
| ListAdapter.DeleteItemIsDeleteFirstIndex | Sources/iOS/Extensions/ListAdapter+Extensions+iOS.swift:107-113 | `delete(item)` equals `delete(index)` at the first equal position |
| ListAdapter.AppendOneIsAppendItem | Sources/iOS/Extensions/ListAdapter+Extensions+iOS.swift:22-58 | appending a one-element list gives the same items as appending the item, and the same view operations as multisets: `append(items)` configures the row before the insert, `append(item)` after it |
| ListAdapter.PrependMatchesAppend | Sources/iOS/Extensions/ListAdapter+Extensions+iOS.swift:85-94 | prepending to an empty list gives the same items as appending |
| ListAdapter.PrependReversesAppend | Sources/iOS/Extensions/ListAdapter+Extensions+iOS.swift:85-94 | the indices prepend inserts are those append would insert for the same items, in reverse order and shifted down by the list's length (exactly reversed on an empty list) |
| ListAdapter.ConfigureEach | Sources/iOS/Extensions/ListAdapter+Extensions+iOS.swift:225-227 | rows not listed are untouched; with distinct indices each listed row is configured once |
| ListAdapter.Update | Sources/iOS/Extensions/ListAdapter+Extensions+iOS.swift:178-214 | out of range: nothing changes; in range: only position index changes, and it holds the configured item, passed through the composite's own configuration for a composite cell, or through the cell's for an on-screen cell that is animated or needs no reload; without a composite cell the height is updated iff kind or height changed after configuration, and the row is reloaded iff that holds and the cell is not both visible and animated; completion fires once on every path |
| ListAdapter.UpdateLastWins | Sources/iOS/Extensions/ListAdapter+Extensions+iOS.swift:178-214 | two updates of one row leave the list as the second update alone would, unless the row is an on-screen plain cell updated without animation |
| ListAdapter.ReloadRows | Sources/iOS/Extensions/ListAdapter+Extensions+iOS.swift:221-245 | indices refreshed; the listed rows (or all when nil) configured, and with distinct indices the rest untouched; `Reload(indexes)`, or section reload/reloadData when nil; completion once |
| ListProcess.ProcessFromFires | Sources/iOS/Extensions/ListAdapter+Extensions+iOS.swift:257-265 | the loop keeps the length and reaches the completion once per index without an item and once per valid occurrence of the last index |
| ListProcess.Process | Sources/iOS/Extensions/ListAdapter+Extensions+iOS.swift:254-266 | empty list: completion once and nothing else; otherwise fires as often as `Firings` counts, keeps the length, leaves every unlisted row as it was, and a row listed once ends as `update` of that row with its own item leaves it, configured in the log |
| ListProcess.ProcessFiresOnce | Sources/iOS/Extensions/ListAdapter+Extensions+iOS.swift:255-265 | all indices valid and the last listed once: completion fires exactly once |
| ListProcess.MissingIndexFiresAgain | Sources/iOS/Extensions/ListAdapter+Extensions+iOS.swift:259 | an extra index without an item, listed anywhere but last, adds exactly one firing |
| ListProcess.MissingLastIndexDisplaces | Sources/iOS/Extensions/ListAdapter+Extensions+iOS.swift:257-265 | an index without an item listed last leaves one firing per missing index and none for the previous last index |
| ListProcess.ReloadIfNeeded | Sources/iOS/Extensions/ListAdapter+Extensions+iOS.swift:276-286 | one batch of insertions, reloads and deletions first; completion fires Firings(children) times, multiplied by Firings(updates) when there are updates |
| ListProcess.ReloadIfNeededSequence | Sources/iOS/Extensions/ListAdapter+Extensions+iOS.swift:276-285 | with updates whose last index is listed once and every index has an item, the result is the batch, then the items and log of processing the updates, then those of processing the updated children on top |
| ListProcess.ProcessFromThenCompletion | Sources/iOS/Extensions/ListAdapter+Extensions+iOS.swift:257-265 | when `last` is listed only at the end and every index has an item, the completion runs once, after all updates: the loop with a completion is the plain loop followed by the completion |
| ListProcess.ProcessFromFrame | Sources/iOS/Extensions/ListAdapter+Extensions+iOS.swift:258-265 | the loop keeps the length and leaves rows not listed untouched |
| ListProcess.ProcessFromRows | Sources/iOS/Extensions/ListAdapter+Extensions+iOS.swift:258-265 | a row listed once ends as its own update leaves it, and is configured in the log |
| ListProcess.EmptyChangesFireOnce | Sources/iOS/Extensions/ListAdapter+Extensions+iOS.swift:277-279 | an empty change set issues one empty batch, leaves the items alone and fires once |
| ListProcess.AppendMatchesDiff | Sources/iOS/Extensions/ListAdapter+Extensions+iOS.swift:43-53 | the insertions the differ finds for appended items are exactly the indices `append(items)` inserts, and nothing else changes |
| Diff.Compare | SpotsTests/Shared/TestViewModelExtensions.swift:55-69 | Kind iff kinds differ; Title iff kinds agree and titles differ; None iff both agree |
| Diff.Evaluate | SpotsTests/Shared/TestViewModelExtensions.swift:29-43 | length is the longer length; New exactly past the old end; Removed exactly past the new end; every index present on both sides carries the comparison of its two items (kind first, then title) |
| Diff.ProcessChanges | SpotsTests/Shared/TestViewModelExtensions.swift:34-38 | each index lands in the list of its tag (New→insertions, Removed→deletions, Kind→reloads, Title→updates), ascending; counts equal tag counts; no child updates |
| Diff.EvaluateSelf | SpotsTests/Shared/TestViewModelExtensions.swift:29-31 | a list against itself is None everywhere |
| Diff.EvaluateAppended | SpotsTests/Shared/TestViewModelExtensions.swift:29-32 | appended items are New after a None prefix |
| Diff.EvaluateRemovedTail | SpotsTests/Shared/TestViewModelExtensions.swift:40-43 | with the arguments swapped they are Removed |
| Diff.EvaluateSwap | SpotsTests/Shared/TestViewModelExtensions.swift:40-43 | swapping arguments exchanges New and Removed and keeps Kind, Title, None |
| Diff.KindTakesPrecedence | SpotsTests/Shared/TestViewModelExtensions.swift:67-69 | kind and title both changed gives Kind, never Title |
| Diff.ChangesExclusive | SpotsTests/Shared/TestViewModelExtensions.swift:71-75 | no index is in two of insertions, deletions, reloads, updates |
| Diff.AppendedToPair | SpotsTests/Shared/TestViewModelExtensions.swift:13-38 | for any two-item list with one item appended, the diff is [None,None,New] and processChanges reports exactly one insertion |
| Diff.RemovedFromPair | SpotsTests/Shared/TestViewModelExtensions.swift:40-49 | for the same lists compared the other way round, the diff is [None,None,Removed] and processChanges reports exactly one deletion |
| Diff.AppendScenario | SpotsTests/Shared/TestViewModelExtensions.swift:13-38 | [foo,bar,baz] against [foo,bar]: [None,None,New]; 1 insertion, 0 updates, reloads, deletions |
| Diff.RemoveScenario | SpotsTests/Shared/TestViewModelExtensions.swift:40-49 | swapped: [None,None,Removed]; exactly 1 deletion |
| Diff.KindScenario | SpotsTests/Shared/TestViewModelExtensions.swift:55-75 | [Title, Kind]; 0 insertions, 1 update, 1 reload, 0 deletions |
| GridRegistry.Store | Sources/Mac/Structs/GridRegistry.swift:37 | a value is stored under its key, nil removes the key, other keys keep their entries |
| GridRegistry.Get | Sources/Mac/Structs/GridRegistry.swift:33-35 | present exactly when the key is registered |
| GridRegistry.Set | Sources/Mac/Structs/GridRegistry.swift:36-38 | the key now reads as the value set; other keys, the default and the cache unchanged |
| GridRegistry.GetAfterSet | Sources/Mac/Structs/GridRegistry.swift:32-39 | get after set returns the value; other keys read as before |
| GridRegistry.SetDefault | Sources/Mac/Structs/GridRegistry.swift:16-25 | assigning the default also registers it under the new default identifier; no other key changes |
| GridRegistry.DefaultIsRegistered | Sources/Mac/Structs/GridRegistry.swift:16-20 | after assigning a default, `make` of the default identifier is not nil |
| GridRegistry.Purge | Sources/Mac/Structs/GridRegistry.swift:49-51 | cache emptied, storage and default unchanged |
| GridRegistry.PurgeForcesFreshViews | Sources/Mac/Structs/GridRegistry.swift:49-51 | after purge, `make` builds the view afresh and leaves storage alone |
| GridRegistry.Make | Sources/Mac/Structs/GridRegistry.swift:59-91 | nil iff the identifier is unknown; Regular for a class entry, Nib for a nib entry; storage never changes; the cache changes only under the bare identifier; a view cached under rawValue+identifier is returned as is; on a miss the view is a fresh instantiation of the entry, stored under the bare identifier when there is one, and nothing changes when there is none |
| GridRegistry.CacheKeyDiffers | Sources/Mac/Structs/GridRegistry.swift:68 | the key read (rawValue + identifier) is never the key written (identifier) |
| GridRegistry.CacheKeyInjective | Sources/Mac/Structs/GridRegistry.swift:68-76 | distinct (type, identifier) pairs read distinct cache keys |
| GridRegistry.MakeNeverCachesOwnKey | Sources/Mac/Structs/GridRegistry.swift:86-88 | as written, a view not cached before `make` is still not cached after it, so each call builds a new view |
| GridRegistry.MakeServesForeignView | Sources/Mac/Structs/GridRegistry.swift:66-88 | as written, the view made for "regularfoo" is served for "foo", a different registration |
| GridRegistry.MakeCached | Sources/Mac/Structs/GridRegistry.swift:59-91 | corrected: a cached view is returned as is; on a miss the view is a fresh instantiation of the entry, cached under the key `make` reads |
| GridRegistry.MakeCachedServesOwnView | Sources/Mac/Structs/GridRegistry.swift:68-70 | corrected: a second `make` returns the cached view and changes nothing |
| GridSpot.FromRawValue | Sources/Mac/Classes/GridSpot.swift:13-17 | parses exactly "grid", "left", "flow"; any other string gives nil |
| GridSpot.RawValueRoundTrip | Sources/Mac/Classes/GridSpot.swift:13-17 | raw values round-trip, and a string parses to a type iff it is that type's raw value |
| GridSpot.ConfigureLayoutInsets | Sources/Mac/Classes/GridSpot.swift:190-201 | insets from the inset-* keys, spacing from itemSpacing / lineSpacing, each defaulting to 0 |
| GridSpot.SetupLayout | Sources/Mac/Classes/GridSpot.swift:210-237 | the layout kind follows the resolved type; Flow always scrolls vertically; Left and Flow get the configured insets, Grid none but takes its maximum and minimum item sizes from the four size keys, each with its own default |
| GridSpot.GridReadsSizeKeys | Sources/Mac/Classes/GridSpot.swift:212-219 | a grid with all four size keys set uses exactly those values for its maximum and minimum item size |
| GridSpot.UnknownLayoutIsFlow | Sources/Mac/Classes/GridSpot.swift:213-233 | a missing or unrecognised `layout` gives a vertical flow layout |
| GridSpot.GridDefaults | Sources/Mac/Classes/GridSpot.swift:217-220 | a grid layout with no size keys gets max 120×120 and min 80×80 |
| GridSpot.GridableSpacingKeysIgnored | Sources/Mac/Classes/GridSpot.swift:197-198 | spacing stored under item-spacing / line-spacing is ignored; spacing stays 0 |
| GridSpot.EmptyMetaLayout | Sources/Mac/Classes/GridSpot.swift:40-72 | no meta at all gives a vertical flow layout with zero insets and spacing |
| Listable.FirstMatch | Sources/iOS/Extensions/Listable+Extensions+iOS.swift:28 | nil iff no item matches; otherwise the first matching position |
| Listable.ScrollTo | Sources/iOS/Extensions/Listable+Extensions+iOS.swift:27-32 | 0 when nothing matches; else the height sum of items[0…k] inclusive, k the stored index of the first match |
| Listable.HeightSumMonotone | Sources/iOS/Extensions/Listable+Extensions+iOS.swift:30-31 | with non-negative heights, a later match never scrolls less |
| Listable.RefreshedIsScrollable | Sources/iOS/Extensions/Listable+Extensions+iOS.swift:30 | after `refreshIndexes` the stored index of the first match is its position, so the slice is in range |
| Listable.LayoutFrame | Sources/iOS/Extensions/Listable+Extensions+iOS.swift:17-21 | width always the given width; height unchanged without a component size, else the component's height |
| Listable.LayoutFrameIdempotent | Sources/iOS/Extensions/Listable+Extensions+iOS.swift:17-21 | laying out twice with the same size is laying out once |

## Left out

- Main-queue marshalling and main-thread affinity: queued blocks run at once.
- Rendering: `UITableView` / `NSCollectionView` calls, `beginUpdates` / `endUpdates`, `UIView.setAnimationsEnabled` and `cellForRowAtIndexPath` appear only as entries of the view-operation log or as `ViewOracle` answers.
- Animation styles: only "animated or not" (`animation != .None`) is modelled.
- `ListAdapter.ui(atIndex:)`: a cell lookup in the platform view.
- `prepareItems` (called on the reload path of `update`) is not part of this model and is taken to leave the items unchanged.
- `Item.evaluate` returns an optional array in Swift; its implementation is not part of this model, and the model returns the tag array as the test reads it.
- Diff.Compare: compares only kind and title, the fields the unit test pins down; other fields, child items and the `updatedChildren` pass are not modelled, so `processChanges` always yields no child updates.
- `GridRegistry`: `NSCache` eviction and nib instantiation are left out; the cache is a plain map and nib loading is the oracle `loadNib`. `String(defaultItem)` is modelled without Swift's module prefix.
- `GridSpot` frame geometry (`layout(size:)`, `setup`, `configureTitleView`), title fonts and the collection-view set-up.
- GridSpot.MetaNumber: Brick's `meta(key, default)` casts the stored value to the default's type; the model keeps one number type (real) for CGFloat and Int values and does not model Foundation number bridging.
- Listable.ScrollTo: heights are integers, not CGFloat.
- Items: `width` and `height` are integers in every operation, not CGFloat. This includes the `size.height !=` test in `update` (ListAdapter+Extensions+iOS.swift:198) and the height sums of `scrollTo`.
- String equality: Swift's `String ==` and `Dictionary<String, …>` keys compare by Unicode canonical equivalence, while the model compares code points. This affects `Compare`, the kind test in `update`, `Item` equality in `delete(item)`, and the registry's storage and cache keys. Strings that are canonically equivalent but spelled differently are equal in the source and different in the model.
- Shared cache: `GridRegistry` is a struct holding an `NSCache` reference, and `make` and `purge` are non-mutating, so copies of a registry share one cache. The model threads the cache through `MakeResult` as a value, so it does not show one copy seeing views cached through another.
- `CollectionAdapter` delegate callbacks, `Listable+Mac`, `GridComposite`, and the example applications.

## Findings

| source | as written | input that shows it | evidently intended | confidence | as-written member | corrected member |
|---|---|---|---|---|---|---|
| Sources/Mac/Structs/GridRegistry.swift:86-88 | the new view is cached under `identifier`, but looked up under `rawValue + identifier` | storage {"foo": classType(A), "regularfoo": classType(B)}, empty cache: `make("regularfoo")` then `make("foo")` returns a B view; `make("foo")` twice never hits the cache | cache under the key that is read | high; not executed | GridRegistry.Make, GridRegistry.MakeNeverCachesOwnKey, GridRegistry.MakeServesForeignView | GridRegistry.MakeCached, GridRegistry.MakeCachedServesOwnView |
| Sources/iOS/Extensions/ListAdapter+Extensions+iOS.swift:129-132 | `delete(items)` appends the items and reports rows count+i as deleted | items [a], delete([b]): the list becomes [a, b] and row 1, which the view never had, is deleted | remove the rows holding the given items and report their positions | high that it is wrong, medium on the exact intended semantics; not executed | ListAdapter.DeleteItems, ListAdapter.DeleteItemsGrows | ListAdapter.DeleteItemsCorrected |
| Sources/iOS/Extensions/ListAdapter+Extensions+iOS.swift:164-165 | `delete(indexes)` removes the indices one after another from the shrinking array but reports them to the view as positions of the list as it was | items [a, b, c], delete([0, 1]): the array keeps b, the view deletes rows 0 and 1 and keeps c | remove the reported rows of the list as it was (for example by removing in descending order) | medium; not executed | ListAdapter.DeleteIndexes, ListAdapter.DeleteIndexesAscendingMismatch | ListAdapter.DeleteIndexesCorrected, ListAdapter.DeleteIndexesCorrectedAgrees |

=== FILE: diff.dfy ===
/**
  The item differ (`Item.evaluate`) and change aggregator
  (`Item.processChanges`), as far as the unit tests fix them: items are
  compared index by index, kind before title; extra new items are `New`,
  missing ones `Removed`; `New` becomes an insertion, `Removed` a deletion,
  `Kind` a reload and `Title` an update.
 */
module Diff {
  import opened Items

  datatype ItemDiff = None | New | Removed | Title | Kind

  /** The change set `reloadIfNeeded` consumes. */
  datatype ItemChanges = ItemChanges(
    insertions: seq<int>,
    updates: seq<int>,
    reloads: seq<int>,
    deletions: seq<int>,
    updatedChildren: seq<int>)

  function Max(a: int, b: int): int { if a < b then b else a }

  predicate StrictlyIncreasing(s: seq<int>) {
    forall a, b :: 0 <= a < b < |s| ==> s[a] < s[b]
  }

  /** The tag of one index present on both sides: a kind change wins over a title change. */
  function Compare(newItem: Item, oldItem: Item): (d: ItemDiff)
    ensures d == Kind <==> newItem.kind != oldItem.kind
    ensures d == Title <==> newItem.kind == oldItem.kind && newItem.title != oldItem.title
    ensures d == None <==> newItem.kind == oldItem.kind && newItem.title == oldItem.title
    ensures d != New && d != Removed
  {
    if newItem.kind != oldItem.kind then Kind
    else if newItem.title != oldItem.title then Title
    else None
  }

  /** The tag at index `i` of the comparison of `newItems` against `oldItems`. */
  function TagAt(newItems: seq<Item>, oldItems: seq<Item>, i: nat): ItemDiff
    requires i < Max(|newItems|, |oldItems|)
  {
    if i >= |oldItems| then New
    else if i >= |newItems| then Removed
    else Compare(newItems[i], oldItems[i])
  }

  /** `Item.evaluate(newItems, oldModels: oldItems)`. */
  function Evaluate(newItems: seq<Item>, oldItems: seq<Item>): (r: seq<ItemDiff>)
    ensures |r| == Max(|newItems|, |oldItems|)
    ensures forall i :: 0 <= i < |r| ==> (r[i] == New <==> i >= |oldItems|)
    ensures forall i :: 0 <= i < |r| ==> (r[i] == Removed <==> i >= |newItems|)
    ensures forall i :: 0 <= i < |newItems| && i < |oldItems| ==> r[i] == Compare(newItems[i], oldItems[i])
  {
    seq(Max(|newItems|, |oldItems|), i requires 0 <= i < Max(|newItems|, |oldItems|) => TagAt(newItems, oldItems, i))
  }

  /** The indices below `n` whose tag is `tag`, ascending. */
  function Positions(c: seq<ItemDiff>, n: nat, tag: ItemDiff): (r: seq<int>)
    requires n <= |c|
    ensures StrictlyIncreasing(r)
    ensures forall i :: i in r <==> 0 <= i < n && c[i] == tag
    ensures |r| == multiset(c[..n])[tag]
  {
    if n == 0 then []
    else
      var r := Positions(c, n - 1, tag);
      assert c[..n] == c[..n - 1] + [c[n - 1]];
      assert forall k :: 0 <= k < |r| ==> r[k] < n - 1 by {
        forall k | 0 <= k < |r| ensures r[k] < n - 1 { assert r[k] in r; }
      }
      if c[n - 1] == tag then r + [n - 1] else r
  }

  /**
    `Item.processChanges`: every index lands in the list its tag names, in
    ascending order; unchanged indices land nowhere.
   */
  function ProcessChanges(c: seq<ItemDiff>): (r: ItemChanges)
    ensures StrictlyIncreasing(r.insertions) && StrictlyIncreasing(r.updates)
    ensures StrictlyIncreasing(r.reloads) && StrictlyIncreasing(r.deletions)
    ensures forall i :: i in r.insertions <==> 0 <= i < |c| && c[i] == New
    ensures forall i :: i in r.deletions <==> 0 <= i < |c| && c[i] == Removed
    ensures forall i :: i in r.reloads <==> 0 <= i < |c| && c[i] == Kind
    ensures forall i :: i in r.updates <==> 0 <= i < |c| && c[i] == Title
    ensures |r.insertions| == multiset(c)[New] && |r.deletions| == multiset(c)[Removed]
    ensures |r.reloads| == multiset(c)[Kind] && |r.updates| == multiset(c)[Title]
    ensures r.updatedChildren == []
  {
    assert c[..|c|] == c;
    ItemChanges(Positions(c, |c|, New), Positions(c, |c|, Title), Positions(c, |c|, Kind),
                Positions(c, |c|, Removed), [])
  }

  // ---------------------------------------------------------------- lemmas

  /** A sequence compared with itself is unchanged everywhere. */
  lemma EvaluateSelf(xs: seq<Item>)
    ensures Evaluate(xs, xs) == seq(|xs|, i => None)
  {
  }

  /** Items appended to `before` are tagged `New`, the common prefix `None`. */
  lemma EvaluateAppended(before: seq<Item>, xs: seq<Item>)
    ensures Evaluate(before + xs, before) == seq(|before|, i => None) + seq(|xs|, i => New)
  {
  }

  /** Comparing the other way round turns the appended items into `Removed`. */
  lemma EvaluateRemovedTail(before: seq<Item>, xs: seq<Item>)
    ensures Evaluate(before, before + xs) == seq(|before|, i => None) + seq(|xs|, i => Removed)
  {
  }

  /** Swapping the arguments swaps `New` and `Removed` and keeps every other tag. */
  lemma EvaluateSwap(a: seq<Item>, b: seq<Item>, i: nat)
    requires i < Max(|a|, |b|)
    ensures Evaluate(a, b)[i] == New <==> Evaluate(b, a)[i] == Removed
    ensures Evaluate(a, b)[i] == Kind <==> Evaluate(b, a)[i] == Kind
    ensures Evaluate(a, b)[i] == Title <==> Evaluate(b, a)[i] == Title
    ensures Evaluate(a, b)[i] == None <==> Evaluate(b, a)[i] == None
  {
  }

  /** When kind and title both differ the tag is `Kind`, never `Title`. */
  lemma KindTakesPrecedence(newItems: seq<Item>, oldItems: seq<Item>, i: nat)
    requires i < |newItems| && i < |oldItems|
    requires newItems[i].kind != oldItems[i].kind && newItems[i].title != oldItems[i].title
    ensures Evaluate(newItems, oldItems)[i] == Kind
  {
  }

  function Bit(b: bool): int { if b then 1 else 0 }

  /** No index is in two of the four structural lists. */
  lemma ChangesExclusive(c: seq<ItemDiff>, i: int)
    ensures var r := ProcessChanges(c);
            Bit(i in r.insertions) + Bit(i in r.deletions) + Bit(i in r.reloads) + Bit(i in r.updates) <= 1
  {
  }

  /** Two ascending sequences with the same elements are equal. */
  lemma {:induction false} IncreasingUnique(a: seq<int>, b: seq<int>)
    requires StrictlyIncreasing(a) && StrictlyIncreasing(b)
    requires forall x :: x in a <==> x in b
    ensures a == b
    decreases |a|
  {
    if a == [] {
      assert forall k :: 0 <= k < |b| ==> b[k] in b;
    } else {
      assert a[0] in a;
      assert b != [] by { assert a[0] in b; }
      assert a[0] == b[0] by {
        assert a[0] in b && b[0] in b;
        assert b[0] in a;
        var j :| 0 <= j < |b| && b[j] == a[0];
        var k :| 0 <= k < |a| && a[k] == b[0];
        assert b[0] <= b[j] && a[0] <= a[k];
      }
      forall x ensures x in a[1..] <==> x in b[1..] {
        if x in a[1..] {
          var k :| 1 <= k < |a| && a[k] == x;
          assert x in b && x != b[0];
        }
        if x in b[1..] {
          var k :| 1 <= k < |b| && b[k] == x;
          assert x in a && x != a[0];
        }
      }
      IncreasingUnique(a[1..], b[1..]);
      assert a == [a[0]] + a[1..] && b == [b[0]] + b[1..];
    }
  }

  // ------------------------------------------- the scenarios of the unit test

  function FromJson(title: string, kind: string): Item {
    Item(title, kind, 0, 0, 0)
  }

  /** The counts `processChanges` reports for a tag sequence. */
  lemma ChangeCounts(c: seq<ItemDiff>, insertions: nat, updates: nat, reloads: nat, deletions: nat)
    requires multiset(c)[New] == insertions && multiset(c)[Title] == updates
    requires multiset(c)[Kind] == reloads && multiset(c)[Removed] == deletions
    ensures var p := ProcessChanges(c);
            |p.insertions| == insertions && |p.updates| == updates &&
            |p.reloads| == reloads && |p.deletions| == deletions
  {
  }

  /** Any two-item list with one item appended: one insertion and nothing else. */
  lemma AppendedToPair(before: seq<Item>, baz: Item)
    requires |before| == 2
    ensures var c := Evaluate(before + [baz], before);
            c == [None, None, New] &&
            var p := ProcessChanges(c);
            |p.insertions| == 1 && |p.updates| == 0 && |p.reloads| == 0 && |p.deletions| == 0
  {
    var c := Evaluate(before + [baz], before);
    EvaluateAppended(before, [baz]);
    assert c[0] == None && c[1] == None && c[2] == New;
    assert c == [None, None, New];
    ChangeCounts([None, None, New], 1, 0, 0, 0);
  }

  /** The same pair compared the other way round: one deletion and nothing else. */
  lemma RemovedFromPair(before: seq<Item>, baz: Item)
    requires |before| == 2
    ensures var c := Evaluate(before, before + [baz]);
            c == [None, None, Removed] &&
            var p := ProcessChanges(c);
            |p.insertions| == 0 && |p.updates| == 0 && |p.reloads| == 0 && |p.deletions| == 1
  {
    var c := Evaluate(before, before + [baz]);
    EvaluateRemovedTail(before, [baz]);
    assert c[0] == None && c[1] == None && c[2] == Removed;
    assert c == [None, None, Removed];
    ChangeCounts([None, None, Removed], 0, 0, 0, 1);
  }

  /** `[foo, bar, baz]` against `[foo, bar]`: one insertion and nothing else. */
  lemma AppendScenario()
    ensures var before := [FromJson("foo", ""), FromJson("bar", "")];
            var after := before + [FromJson("baz", "")];
            var c := Evaluate(after, before);
            c == [None, None, New] &&
            var p := ProcessChanges(c);
            |p.insertions| == 1 && |p.updates| == 0 && |p.reloads| == 0 && |p.deletions| == 0
  {
    var before := [FromJson("foo", ""), FromJson("bar", "")];
    var baz := FromJson("baz", "");
    AppendedToPair(before, baz);
  }

  /** The same two lists swapped: one deletion and nothing else. */
  lemma RemoveScenario()
    ensures var before := [FromJson("foo", ""), FromJson("bar", "")];
            var after := before + [FromJson("baz", "")];
            var c := Evaluate(before, after);
            c == [None, None, Removed] &&
            var p := ProcessChanges(c);
            |p.insertions| == 0 && |p.updates| == 0 && |p.reloads| == 0 && |p.deletions| == 1
  {
    var before := [FromJson("foo", ""), FromJson("bar", "")];
    var baz := FromJson("baz", "");
    RemovedFromPair(before, baz);
  }

  /** Title-only change then kind-and-title change: one update, one reload. */
  lemma KindScenario()
    ensures var before := [FromJson("foo", "course-item"), FromJson("bar", "list-item")];
            var after := [FromJson("foo1", "course-item"), FromJson("bar1", "grid-item")];
            var c := Evaluate(before, after);
            c == [Title, Kind] &&
            var p := ProcessChanges(c);
            |p.insertions| == 0 && |p.updates| == 1 && |p.reloads| == 1 && |p.deletions| == 0
  {
    var before := [FromJson("foo", "course-item"), FromJson("bar", "list-item")];
    var after := [FromJson("foo1", "course-item"), FromJson("bar1", "grid-item")];
    var c := Evaluate(before, after);
    assert c[0] == Title && c[1] == Kind;
    assert c == [Title, Kind];
    ChangeCounts([Title, Kind], 0, 1, 1, 0);
  }
}

=== FILE: grid_registry.dfy ===
/**
  The view registry of grid components (`GridRegistry` on macOS): a
  string-keyed table of registered views, each a class to instantiate or a
  nib to load, a default entry, and a cache of views already made.

  The cache (an `NSCache`) is a plain map that never evicts. Creating a view
  from a class yields a `View` of that class; loading a nib is the oracle
  `loadNib`, which may fail.
 */
module GridRegistry {
  import opened Wrappers

  /** A registered view: `classType(…)` or `nib(…)`. */
  datatype Entry = ClassEntry(typeName: string) | NibEntry(nibName: string)

  /** How `make` resolved an identifier. */
  datatype RegistryType = Regular | Nib

  function RawValue(t: RegistryType): string {
    match t
    case Regular => "regular"
    case Nib => "nib"
  }

  /** An instantiated collection view item, known by its class. */
  datatype View = View(typeName: string)

  datatype Registry = Registry(storage: map<string, Entry>, defaultItem: Option<Entry>, cache: map<string, View>)

  /** What `make` hands back: the registry type and the view, if one could be made. */
  datatype Made = Made(kind: RegistryType, view: Option<View>)

  /** `make`'s answer (nil when the identifier is unknown) and the registry after it. */
  datatype MakeResult = MakeResult(made: Option<Made>, registry: Registry)

  /** `String(describing:)` of an entry, without the module prefix Swift adds. */
  function Describe(e: Entry): string {
    match e
    case ClassEntry(n) => "classType(" + n + ")"
    case NibEntry(n) => "nib(" + n + ")"
  }

  /** `defaultIdentifier`: the string form of the optional default entry. */
  function DefaultIdentifier(d: Option<Entry>): string {
    match d
    case None => "nil"
    case Some(e) => "Optional(" + Describe(e) + ")"
  }

  /** `storage[key] = value`; assigning nil removes the key, as for any Swift dictionary. */
  function Store(m: map<string, Entry>, key: string, value: Option<Entry>): (r: map<string, Entry>)
    ensures value.Some? ==> key in r && r[key] == value.value
    ensures value.None? ==> key !in r
    ensures forall k :: k != key ==> (k in r <==> k in m) && (k in r ==> r[k] == m[k])
  {
    match value
    case Some(v) => m[key := v]
    case None => m - {key}
  }

  /** The getter of the subscript. */
  function Get(reg: Registry, key: string): (r: Option<Entry>)
    ensures r.Some? <==> key in reg.storage
    ensures r.Some? ==> r.value == reg.storage[key]
  {
    if key in reg.storage then Some(reg.storage[key]) else None
  }

  /** The setter of the subscript. */
  function Set(reg: Registry, key: string, value: Option<Entry>): (r: Registry)
    ensures r.defaultItem == reg.defaultItem && r.cache == reg.cache
    ensures Get(r, key) == value
    ensures forall k :: k != key ==> Get(r, k) == Get(reg, k)
  {
    reg.(storage := Store(reg.storage, key, value))
  }

  /** Assigning `defaultItem`: its `didSet` also stores it under the new `defaultIdentifier`. */
  function SetDefault(reg: Registry, d: Option<Entry>): (r: Registry)
    ensures r.defaultItem == d && r.cache == reg.cache
    ensures Get(r, DefaultIdentifier(r.defaultItem)) == d
    ensures forall k :: k != DefaultIdentifier(d) ==> Get(r, k) == Get(reg, k)
  {
    var withDefault := reg.(defaultItem := d);
    withDefault.(storage := Store(withDefault.storage, DefaultIdentifier(withDefault.defaultItem), d))
  }

  /** `purge`: empties the view cache. */
  function Purge(reg: Registry): (r: Registry)
    ensures r.cache == map[]
    ensures r.storage == reg.storage && r.defaultItem == reg.defaultItem
  {
    reg.(cache := map[])
  }

  function TypeOf(e: Entry): RegistryType {
    match e
    case ClassEntry(_) => Regular
    case NibEntry(_) => Nib
  }

  /** The key under which `make` looks a view up: the raw value of its type, then the identifier. */
  function CacheKey(t: RegistryType, id: string): string {
    RawValue(t) + id
  }

  /** A fresh view for an entry: the class instantiated, or the nib loaded. */
  function Instantiate(e: Entry, loadNib: string -> Option<View>): Option<View> {
    match e
    case ClassEntry(n) => Some(View(n))
    case NibEntry(n) => loadNib(n)
  }

  /**
    `make(identifier)` AS WRITTEN: unknown identifiers give nil; a cached view
    under `CacheKey` is returned as is; otherwise a fresh view is made and,
    if there is one, cached under the BARE identifier.
   */
  function Make(reg: Registry, id: string, loadNib: string -> Option<View>): (r: MakeResult)
    ensures r.made.None? <==> id !in reg.storage
    ensures r.registry.storage == reg.storage && r.registry.defaultItem == reg.defaultItem
    ensures r.made.Some? ==> r.made.value.kind == TypeOf(reg.storage[id])
    ensures forall k :: k != id ==> (k in r.registry.cache <==> k in reg.cache)
    ensures forall k :: k != id && k in reg.cache ==> r.registry.cache[k] == reg.cache[k]
    ensures id in reg.storage && CacheKey(TypeOf(reg.storage[id]), id) in reg.cache ==>
              r.registry == reg &&
              r.made.value.view == Some(reg.cache[CacheKey(TypeOf(reg.storage[id]), id)])
    ensures id in reg.storage && CacheKey(TypeOf(reg.storage[id]), id) !in reg.cache ==>
              r.made.value.view == Instantiate(reg.storage[id], loadNib) &&
              (r.made.value.view.Some? ==> id in r.registry.cache && r.registry.cache[id] == r.made.value.view.value) &&
              (r.made.value.view.None? ==> r.registry == reg)
  {
    if id !in reg.storage then MakeResult(None, reg)
    else
      var entry := reg.storage[id];
      var t := TypeOf(entry);
      var key := CacheKey(t, id);
      if key in reg.cache then MakeResult(Some(Made(t, Some(reg.cache[key]))), reg)
      else
        var view := Instantiate(entry, loadNib);
        var cache := if view.Some? then reg.cache[id := view.value] else reg.cache;
        MakeResult(Some(Made(t, view)), reg.(cache := cache))
  }

  /** `make` with the cache written under the key it is read from. */
  function MakeCached(reg: Registry, id: string, loadNib: string -> Option<View>): (r: MakeResult)
    ensures r.made.None? <==> id !in reg.storage
    ensures r.registry.storage == reg.storage && r.registry.defaultItem == reg.defaultItem
    ensures r.made.Some? ==> r.made.value.kind == TypeOf(reg.storage[id])
    ensures id in reg.storage && r.made.value.view.Some? ==>
              CacheKey(TypeOf(reg.storage[id]), id) in r.registry.cache &&
              r.registry.cache[CacheKey(TypeOf(reg.storage[id]), id)] == r.made.value.view.value
    ensures id in reg.storage && CacheKey(TypeOf(reg.storage[id]), id) in reg.cache ==>
              r.registry == reg &&
              r.made.value.view == Some(reg.cache[CacheKey(TypeOf(reg.storage[id]), id)])
    ensures id in reg.storage && CacheKey(TypeOf(reg.storage[id]), id) !in reg.cache ==>
              r.made.value.view == Instantiate(reg.storage[id], loadNib) &&
              (r.made.value.view.None? ==> r.registry == reg)
  {
    if id !in reg.storage then MakeResult(None, reg)
    else
      var entry := reg.storage[id];
      var t := TypeOf(entry);
      var key := CacheKey(t, id);
      if key in reg.cache then MakeResult(Some(Made(t, Some(reg.cache[key]))), reg)
      else
        var view := Instantiate(entry, loadNib);
        var cache := if view.Some? then reg.cache[key := view.value] else reg.cache;
        MakeResult(Some(Made(t, view)), reg.(cache := cache))
  }

  // ---------------------------------------------------------------- lemmas

  /** Reading a key right after setting it gives the value set; other keys read as before. */
  lemma GetAfterSet(reg: Registry, key: string, value: Option<Entry>, other: string)
    ensures Get(Set(reg, key, value), key) == value
    ensures other != key ==> Get(Set(reg, key, value), other) == Get(reg, other)
  {
  }

  /** After assigning a default entry, the registry resolves `defaultIdentifier` to it. */
  lemma DefaultIsRegistered(reg: Registry, e: Entry)
    ensures var r := SetDefault(reg, Some(e));
            Get(r, DefaultIdentifier(r.defaultItem)) == Some(e) && Make(r, DefaultIdentifier(r.defaultItem), (n: string) => None).made.Some?
  {
  }

  /** A raw value never equals the empty prefix, so a read key never equals the identifier. */
  lemma CacheKeyDiffers(t: RegistryType, id: string)
    ensures CacheKey(t, id) != id
  {
    assert |CacheKey(t, id)| > |id|;
  }

  /** Two lookups use the same cache key only for the same type and identifier. */
  lemma CacheKeyInjective(t1: RegistryType, id1: string, t2: RegistryType, id2: string)
    requires CacheKey(t1, id1) == CacheKey(t2, id2)
    ensures t1 == t2 && id1 == id2
  {
    var key := CacheKey(t1, id1);
    assert key[0] == RawValue(t1)[0] && key[0] == RawValue(t2)[0];
    assert t1 == t2;
    var n := |RawValue(t1)|;
    assert key[n..] == id1 && key[n..] == id2;
  }

  /**
    As written, `make` never stores what its own later lookups read: when the
    view for `id` is not cached it is still not cached after `make`, so every
    call builds a new view.
   */
  lemma MakeNeverCachesOwnKey(reg: Registry, id: string, loadNib: string -> Option<View>)
    requires id in reg.storage
    requires CacheKey(TypeOf(reg.storage[id]), id) !in reg.cache
    ensures var r := Make(reg, id, loadNib);
            CacheKey(TypeOf(reg.storage[id]), id) !in r.registry.cache &&
            r.made.value.view == Instantiate(reg.storage[id], loadNib)
  {
    CacheKeyDiffers(TypeOf(reg.storage[id]), id);
  }

  /**
    As written, the view made for identifier "regularfoo" is later served for
    identifier "foo", although "foo" is registered with another class.
   */
  lemma MakeServesForeignView()
    ensures var reg := Registry(map["foo" := ClassEntry("A"), "regularfoo" := ClassEntry("B")], None, map[]);
            var first := Make(reg, "regularfoo", (n: string) => None);
            Make(first.registry, "foo", (n: string) => None).made == Some(Made(Regular, Some(View("B"))))
  {
    var reg := Registry(map["foo" := ClassEntry("A"), "regularfoo" := ClassEntry("B")], None, map[]);
    var first := Make(reg, "regularfoo", (n: string) => None);
    assert CacheKey(Regular, "regularfoo") == "regularregularfoo";
    assert first.registry.cache == map["regularfoo" := View("B")];
    assert CacheKey(Regular, "foo") == "regularfoo";
  }

  /** Corrected: a second `make` of the same identifier returns the cached view and changes nothing. */
  lemma MakeCachedServesOwnView(reg: Registry, id: string, loadNib: string -> Option<View>)
    requires id in reg.storage
    requires MakeCached(reg, id, loadNib).made.value.view.Some?
    ensures var first := MakeCached(reg, id, loadNib);
            var second := MakeCached(first.registry, id, loadNib);
            second.registry == first.registry && second.made == first.made
  {
  }

  /** After `purge`, `make` builds every view afresh. */
  lemma PurgeForcesFreshViews(reg: Registry, id: string, loadNib: string -> Option<View>)
    requires id in reg.storage
    ensures Make(Purge(reg), id, loadNib).made.value.view == Instantiate(reg.storage[id], loadNib)
    ensures Make(Purge(reg), id, loadNib).registry.storage == reg.storage
  {
  }
}

=== FILE: grid_spot.dfy ===
/**
  Layout resolution of a grid component (`GridSpot.setupLayout` and
  `configureLayoutInsets` on macOS): a pure function from the component's
  meta map to a layout descriptor. Meta lookups return the stored value when
  it has the expected type and the default otherwise. Widths, heights,
  insets and spacings are real numbers.
 */
module GridSpot {
  import opened Wrappers
  import opened Items

  /** `LayoutType` with its raw values. */
  datatype LayoutType = Grid | Left | Flow

  function RawValue(t: LayoutType): string {
    match t
    case Grid => "grid"
    case Left => "left"
    case Flow => "flow"
  }

  /** `LayoutType(rawValue:)`: nil for any other string. */
  function FromRawValue(s: string): (r: Option<LayoutType>)
    ensures r.Some? ==> RawValue(r.value) == s
    ensures r.None? ==> s != "grid" && s != "left" && s != "flow"
  {
    if s == "grid" then Some(Grid)
    else if s == "left" then Some(Left)
    else if s == "flow" then Some(Flow)
    else None
  }

  /** A meta value as decoded from the component's JSON. */
  datatype MetaValue = Text(text: string) | Number(number: real) | Flag(flag: bool)

  type Meta = map<string, MetaValue>

  /** `component.meta(key, default)` for a string. */
  function MetaText(meta: Meta, key: string, default: string): string {
    if key in meta && meta[key].Text? then meta[key].text else default
  }

  /** `component.meta(key, default)` for a number. */
  function MetaNumber(meta: Meta, key: string, default: real): real {
    if key in meta && meta[key].Number? then meta[key].number else default
  }

  // The meta keys of `GridSpot.Key` that the layout reads.
  const LayoutKey := "layout"
  const ItemSpacingKey := "itemSpacing"
  const LineSpacingKey := "lineSpacing"
  const MaximumItemWidthKey := "itemWidthMax"
  const MaximumItemHeightKey := "itemHeightMax"
  const MinimumItemWidthKey := "itemMinWidth"
  const MinimumItemHeightKey := "itemMinHeight"

  // The meta keys of `GridableMeta.Key`.
  const SectionInsetTopKey := "inset-top"
  const SectionInsetLeftKey := "inset-left"
  const SectionInsetRightKey := "inset-right"
  const SectionInsetBottomKey := "inset-bottom"
  const GridableItemSpacingKey := "item-spacing"
  const GridableLineSpacingKey := "line-spacing"

  // `GridSpot.Default`.
  const DefaultLayout := RawValue(Flow)
  const DefaultMaximumItemWidth: real := 120.0
  const DefaultMaximumItemHeight: real := 120.0
  const DefaultMinimumItemWidth: real := 80.0
  const DefaultMinimumItemHeight: real := 80.0
  const DefaultSectionInset: real := 0.0
  const DefaultFlowSpacing: real := 0.0

  datatype Insets = Insets(top: real, left: real, bottom: real, right: real)

  datatype ScrollDirection = Vertical | Horizontal

  /** The insets and spacings `configureLayoutInsets` sets on a flow-based layout. */
  datatype FlowSettings = FlowSettings(sectionInset: Insets, minimumInteritemSpacing: real, minimumLineSpacing: real)

  /** The layout a grid component gets: grid, left-aligned flow, or flow. */
  datatype Layout =
    | GridLayout(maximumItemSize: Size, minimumItemSize: Size)
    | LeftLayout(settings: FlowSettings)
    | FlowLayout(settings: FlowSettings, scrollDirection: ScrollDirection)

  /** The layout type named by the `layout` meta key, `flow` when missing or unrecognised. */
  function ResolveLayoutType(meta: Meta): LayoutType {
    FromRawValue(MetaText(meta, LayoutKey, DefaultLayout)).GetOr(Flow)
  }

  /** `configureLayoutInsets`: insets from the `inset-*` keys, spacings from `itemSpacing` and `lineSpacing`. */
  function ConfigureLayoutInsets(meta: Meta): (r: FlowSettings)
    ensures r.sectionInset.top == MetaNumber(meta, SectionInsetTopKey, DefaultSectionInset)
    ensures r.sectionInset.left == MetaNumber(meta, SectionInsetLeftKey, DefaultSectionInset)
    ensures r.sectionInset.bottom == MetaNumber(meta, SectionInsetBottomKey, DefaultSectionInset)
    ensures r.sectionInset.right == MetaNumber(meta, SectionInsetRightKey, DefaultSectionInset)
    ensures r.minimumInteritemSpacing == MetaNumber(meta, ItemSpacingKey, DefaultFlowSpacing)
    ensures r.minimumLineSpacing == MetaNumber(meta, LineSpacingKey, DefaultFlowSpacing)
  {
    FlowSettings(
      Insets(
        MetaNumber(meta, SectionInsetTopKey, DefaultSectionInset),
        MetaNumber(meta, SectionInsetLeftKey, DefaultSectionInset),
        MetaNumber(meta, SectionInsetBottomKey, DefaultSectionInset),
        MetaNumber(meta, SectionInsetRightKey, DefaultSectionInset)),
      MetaNumber(meta, ItemSpacingKey, DefaultFlowSpacing),
      MetaNumber(meta, LineSpacingKey, DefaultFlowSpacing))
  }

  /** `setupLayout`: the layout a component's meta asks for. */
  function SetupLayout(meta: Meta): (r: Layout)
    ensures r.GridLayout? <==> ResolveLayoutType(meta) == Grid
    ensures r.LeftLayout? <==> ResolveLayoutType(meta) == Left
    ensures r.FlowLayout? <==> ResolveLayoutType(meta) == Flow
    ensures r.FlowLayout? ==> r.scrollDirection == Vertical
    ensures !r.GridLayout? ==> r.settings == ConfigureLayoutInsets(meta)
    ensures r.GridLayout? ==>
              r.maximumItemSize == Size(MetaNumber(meta, MaximumItemWidthKey, DefaultMaximumItemWidth),
                                        MetaNumber(meta, MaximumItemHeightKey, DefaultMaximumItemHeight))
    ensures r.GridLayout? ==>
              r.minimumItemSize == Size(MetaNumber(meta, MinimumItemWidthKey, DefaultMinimumItemWidth),
                                        MetaNumber(meta, MinimumItemHeightKey, DefaultMinimumItemHeight))
  {
    match ResolveLayoutType(meta)
    case Grid =>
      GridLayout(
        Size(MetaNumber(meta, MaximumItemWidthKey, DefaultMaximumItemWidth),
             MetaNumber(meta, MaximumItemHeightKey, DefaultMaximumItemHeight)),
        Size(MetaNumber(meta, MinimumItemWidthKey, DefaultMinimumItemWidth),
             MetaNumber(meta, MinimumItemHeightKey, DefaultMinimumItemHeight)))
    case Left => LeftLayout(ConfigureLayoutInsets(meta))
    case Flow => FlowLayout(ConfigureLayoutInsets(meta), Vertical)
  }

  // ---------------------------------------------------------------- lemmas

  /** The three raw values round-trip, and no other string names a layout type. */
  lemma RawValueRoundTrip(t: LayoutType, s: string)
    ensures FromRawValue(RawValue(t)) == Some(t)
    ensures FromRawValue(s) == Some(t) <==> s == RawValue(t)
  {
  }

  /** No `layout` key, or one naming no layout type, gives a vertical flow layout. */
  lemma UnknownLayoutIsFlow(meta: Meta)
    requires LayoutKey !in meta || !meta[LayoutKey].Text? ||
             (meta[LayoutKey].text != "grid" && meta[LayoutKey].text != "left")
    ensures SetupLayout(meta) == FlowLayout(ConfigureLayoutInsets(meta), Vertical)
  {
  }

  /** A grid layout with no size keys gets items between 80×80 and 120×120. */
  lemma GridDefaults(meta: Meta)
    requires LayoutKey in meta && meta[LayoutKey] == Text("grid")
    requires MaximumItemWidthKey !in meta && MaximumItemHeightKey !in meta
    requires MinimumItemWidthKey !in meta && MinimumItemHeightKey !in meta
    ensures SetupLayout(meta) == GridLayout(Size(120.0, 120.0), Size(80.0, 80.0))
  {
  }

  /** A grid takes its item sizes from the number values under the size keys. */
  lemma GridReadsSizeKeys(meta: Meta, maxWidth: real, maxHeight: real, minWidth: real, minHeight: real)
    requires LayoutKey in meta && meta[LayoutKey] == Text("grid")
    requires MaximumItemWidthKey in meta && meta[MaximumItemWidthKey] == Number(maxWidth)
    requires MaximumItemHeightKey in meta && meta[MaximumItemHeightKey] == Number(maxHeight)
    requires MinimumItemWidthKey in meta && meta[MinimumItemWidthKey] == Number(minWidth)
    requires MinimumItemHeightKey in meta && meta[MinimumItemHeightKey] == Number(minHeight)
    ensures SetupLayout(meta) == GridLayout(Size(maxWidth, maxHeight), Size(minWidth, minHeight))
  {
  }

  /**
    Spacing is read from `itemSpacing` / `lineSpacing`: values stored under the
    `item-spacing` / `line-spacing` keys of `GridableMeta` are ignored.
   */
  lemma GridableSpacingKeysIgnored(meta: Meta, spacing: real)
    requires ItemSpacingKey !in meta && LineSpacingKey !in meta
    ensures var m := meta[GridableItemSpacingKey := Number(spacing)][GridableLineSpacingKey := Number(spacing)];
            !SetupLayout(m).GridLayout? ==>
              SetupLayout(m).settings.minimumInteritemSpacing == 0.0 &&
              SetupLayout(m).settings.minimumLineSpacing == 0.0
  {
  }

  /** An empty meta map gives a vertical flow layout with zero insets and spacing. */
  lemma EmptyMetaLayout()
    ensures SetupLayout(map[]) == FlowLayout(FlowSettings(Insets(0.0, 0.0, 0.0, 0.0), 0.0, 0.0), Vertical)
  {
  }
}

=== FILE: items.dfy ===
/**
  The view-model entities shared by list and grid components.

  An `Item` keeps only the fields the modelled operations read: the two
  fields the differ compares (`title`, `kind`), the size (heights are
  integers here, not floating point) and the stored `index`, which
  `scrollTo` uses as the end of its prefix and `reload` refreshes.
 */
module Items {

  datatype Item = Item(title: string, kind: string, width: int, height: int, index: int)

  /** A width/height pair, standing for `CGSize`. */
  datatype Size = Size(width: real, height: real)

  /** Applies `f` to every element, keeping the order. */
  function MapItems(f: Item -> Item, xs: seq<Item>): (r: seq<Item>)
    ensures |r| == |xs|
    ensures forall i :: 0 <= i < |xs| ==> r[i] == f(xs[i])
  {
    seq(|xs|, i requires 0 <= i < |xs| => f(xs[i]))
  }

  /** Sum of `height` over `xs`, added front to back. */
  function HeightSum(xs: seq<Item>): int
  {
    if xs == [] then 0 else HeightSum(xs[..|xs| - 1]) + xs[|xs| - 1].height
  }
}

=== FILE: list_adapter.dfy ===
/**
  The list-mutation engine of a list component (`ListAdapter` on iOS).

  Every operation is a pure function from the component's `items` to an
  `Outcome`: the new items, the log of view operations it issued, and how
  many times the caller's completion closure fired. Blocks queued on the
  main queue run at once, in program order. `updateHeight` runs its closure
  exactly once, so a completion handed to it fires once and is logged as
  `HeightUpdate`.

  `configureItem(index)` is the parameter `cfg`: it replaces the item at
  `index` by `cfg` of it and is logged as `Configure(index)`.
 */
module ListAdapter {
  import opened Items
  import opened Wrappers

  /** The view operations the engine issues, in the order it issues them. */
  datatype ViewOp =
    | Insert(indices: seq<int>)
    | Delete(indices: seq<int>)
    | Reload(indices: seq<int>)
    | ReloadSection
    | ReloadData
    | Configure(index: int)
    | CellConfigure(index: int)
    | CompositeConfigure(index: int)
    | HeightUpdate
    | Batch(insertions: seq<int>, reloads: seq<int>, deletions: seq<int>)

  datatype Outcome = Outcome(items: seq<Item>, log: seq<ViewOp>, fired: nat)

  /**
    What the table view answers about the row at an index, which the model
    cannot see: whether a configurable cell is on screen, whether that cell
    is a composite with resolvable child spots, and what `configure(&item)`
    of such a cell does to the item.
   */
  datatype ViewOracle = ViewOracle(
    visible: int -> bool,
    composite: int -> bool,
    cellConfigure: Item -> Item,
    compositeConfigure: Item -> Item)

  /** `lo, lo+1, …, hi-1`. */
  function Range(lo: int, hi: int): (r: seq<int>)
    requires lo <= hi
    ensures |r| == hi - lo
    ensures forall i :: 0 <= i < |r| ==> r[i] == lo + i
    decreases hi - lo
  {
    if lo == hi then [] else [lo] + Range(lo + 1, hi)
  }

  /** `hi-1, hi-2, …, lo`. */
  function RangeDown(lo: int, hi: int): (r: seq<int>)
    requires lo <= hi
    ensures |r| == hi - lo
    ensures forall i :: 0 <= i < |r| ==> r[i] == hi - 1 - i
    decreases hi - lo
  {
    if lo == hi then [] else [hi - 1] + RangeDown(lo, hi - 1)
  }

  /** One `Configure(i)` per element of `idx`, in order. */
  function Configures(idx: seq<int>): (r: seq<ViewOp>)
    ensures |r| == |idx|
    ensures forall k :: 0 <= k < |idx| ==> r[k] == Configure(idx[k])
  {
    seq(|idx|, k requires 0 <= k < |idx| => Configure(idx[k]))
  }

  /** `configureItem` applied to each index of `idx` in turn. */
  function ConfigureEach(s: seq<Item>, idx: seq<int>, cfg: Item -> Item): (r: seq<Item>)
    requires forall k :: 0 <= k < |idx| ==> 0 <= idx[k] < |s|
    ensures |r| == |s|
    ensures forall j :: 0 <= j < |s| && j !in idx ==> r[j] == s[j]
    ensures (forall a, b :: 0 <= a < b < |idx| ==> idx[a] != idx[b]) ==>
              forall j :: 0 <= j < |s| && j in idx ==> r[j] == cfg(s[j])
    decreases |idx|
  {
    if idx == [] then s
    else
      var t := s[idx[0] := cfg(s[idx[0]])];
      var r := ConfigureEach(t, idx[1..], cfg);
      assert forall j :: j in idx[1..] ==> j in idx;
      r
  }

  /** `s` with the element at `i` removed (`removeAtIndex`). */
  function RemoveAt(s: seq<Item>, i: int): (r: seq<Item>)
    requires 0 <= i < |s|
    ensures |r| == |s| - 1
    ensures forall j :: 0 <= j < i ==> r[j] == s[j]
    ensures forall j :: i <= j < |r| ==> r[j] == s[j + 1]
  {
    s[..i] + s[i + 1..]
  }

  // ---------------------------------------------------------------- append

  /** `append(item)`: the new item goes last and its index is inserted. */
  function AppendItem(items: seq<Item>, item: Item, cfg: Item -> Item): (r: Outcome)
    ensures |r.items| == |items| + 1
    ensures r.items[..|items|] == items && r.items[|items|] == cfg(item)
    ensures r.log == [Insert([|items|]), HeightUpdate, Configure(|items|)]
    ensures r.fired == 1
  {
    var count := |items|;
    Outcome(items + [cfg(item)], [Insert([count]), HeightUpdate, Configure(count)], 1)
  }

  /**
    `append(items)`: the new items follow the old ones in order, each is
    configured, then the indices `m … m+k-1` are inserted at once.
   */
  function AppendItems(items: seq<Item>, xs: seq<Item>, cfg: Item -> Item): (r: Outcome)
    ensures |r.items| == |items| + |xs|
    ensures r.items[..|items|] == items
    ensures forall i :: 0 <= i < |xs| ==> r.items[|items| + i] == cfg(xs[i])
    ensures |r.log| == |xs| + 2 && r.log[|xs|].Insert? && r.log[|xs| + 1] == HeightUpdate
    ensures |r.log[|xs|].indices| == |xs|
    ensures forall i :: 0 <= i < |xs| ==> r.log[|xs|].indices[i] == |items| + i
    ensures forall i :: 0 <= i < |xs| ==> r.log[i] == Configure(|items| + i)
    ensures r.fired == 1
  {
    var count := |items|;
    var indexes := Range(count, count + |xs|);
    AppendLog(count, |xs|);
    Outcome(items + MapItems(cfg, xs), Configures(indexes) + [Insert(indexes), HeightUpdate], 1)
  }

  /** The log `append(items)` issues for `n` new rows from `count` on: their configures, the insert, the height update. */
  lemma AppendLog(count: int, n: nat)
    ensures var indexes := Range(count, count + n);
            var log := Configures(indexes) + [Insert(indexes), HeightUpdate];
            |log| == n + 2 && log[n] == Insert(indexes) && log[n + 1] == HeightUpdate &&
            forall i :: 0 <= i < n ==> log[i] == Configure(count + i)
  {
    var indexes := Range(count, count + n);
    var configures := Configures(indexes);
    var log := configures + [Insert(indexes), HeightUpdate];
    assert forall i :: 0 <= i < n ==> log[i] == configures[i];
  }

  // ---------------------------------------------------------------- insert

  /**
    `insert(item, index)`: Swift's `Array.insert` traps unless
    `0 <= index <= count`. Not configured.
   */
  function InsertItem(items: seq<Item>, item: Item, index: int): (r: Outcome)
    requires 0 <= index <= |items|
    ensures |r.items| == |items| + 1
    ensures r.items[index] == item
    ensures forall j :: 0 <= j < index ==> r.items[j] == items[j]
    ensures forall j :: index <= j < |items| ==> r.items[j + 1] == items[j]
    ensures r.log == [Insert([index]), HeightUpdate] && r.fired == 1
  {
    Outcome(items[..index] + [item] + items[index..], [Insert([index]), HeightUpdate], 1)
  }

  /**
    `prepend(items)`: the new items come first in their own order, but the
    main-queue block walks them backwards, so configuration and the
    inserted indices run `k-1, …, 0`.
   */
  function Prepend(items: seq<Item>, xs: seq<Item>, cfg: Item -> Item): (r: Outcome)
    ensures |r.items| == |xs| + |items|
    ensures r.items[|xs|..] == items
    ensures forall i :: 0 <= i < |xs| ==> r.items[i] == cfg(xs[i])
    ensures |r.log| == |xs| + 2 && r.log[|xs|].Insert? && r.log[|xs| + 1] == HeightUpdate
    ensures |r.log[|xs|].indices| == |xs|
    ensures forall i :: 0 <= i < |xs| ==> r.log[|xs|].indices[i] == |xs| - 1 - i
    ensures forall i :: 0 <= i < |xs| ==> r.log[i] == Configure(|xs| - 1 - i)
    ensures r.fired == 1
  {
    var indexes := RangeDown(0, |xs|);
    assert forall j :: 0 <= j < |xs| ==> j in indexes by {
      forall j | 0 <= j < |xs| ensures j in indexes {
        assert indexes[|xs| - 1 - j] == j;
      }
    }
    var configured := ConfigureEach(xs + items, indexes, cfg);
    assert configured[|xs|..] == items;
    var configures := Configures(indexes);
    var log := configures + [Insert(indexes), HeightUpdate];
    assert log[|xs|] == Insert(indexes) && log[|xs| + 1] == HeightUpdate;
    assert forall i :: 0 <= i < |xs| ==> log[i] == configures[i];
    Outcome(configured, log, 1)
  }

  // ---------------------------------------------------------------- delete

  /** Position of the first element equal to `item` (`indexOf`). */
  function FirstIndexOf(items: seq<Item>, item: Item): (r: Option<nat>)
    ensures r.None? <==> item !in items
    ensures r.Some? ==> r.value < |items| && items[r.value] == item &&
                        forall j :: 0 <= j < r.value ==> items[j] != item
  {
    if items == [] then None
    else if items[0] == item then Some(0)
    else
      match FirstIndexOf(items[1..], item)
      case None => None
      case Some(k) => Some(k + 1)
  }

  /**
    `delete(item)`: removes only the first equal element; when there is none
    the completion fires at once and nothing else happens.
   */
  function DeleteItem(items: seq<Item>, item: Item): (r: Outcome)
    ensures r.fired == 1
    ensures item !in items ==> r.items == items && r.log == []
    ensures item in items ==>
              multiset(r.items) == multiset(items) - multiset{item} &&
              exists i :: 0 <= i < |items| && items[i] == item && item !in items[..i] &&
                          r.items == items[..i] + items[i + 1..] && r.log == [Delete([i]), HeightUpdate]
  {
    match FirstIndexOf(items, item)
    case None => Outcome(items, [], 1)
    case Some(i) =>
      assert items == items[..i] + [items[i]] + items[i + 1..];
      Outcome(RemoveAt(items, i), [Delete([i]), HeightUpdate], 1)
  }

  /**
    `delete(items)` AS WRITTEN: it appends the items and asks the view to
    delete the rows `count + i` it has just added.
   */
  function DeleteItems(items: seq<Item>, xs: seq<Item>): (r: Outcome)
    ensures r.items == items + xs
    ensures |r.log| == 2 && r.log[0].Delete? && r.log[1] == HeightUpdate
    ensures |r.log[0].indices| == |xs|
    ensures forall i :: 0 <= i < |xs| ==> r.log[0].indices[i] == |items| + i
    ensures r.fired == 1
  {
    var count := |items|;
    Outcome(items + xs, [Delete(Range(count, count + |xs|)), HeightUpdate], 1)
  }

  /** `delete(index)`: `removeAtIndex` traps unless `0 <= index < count`. */
  function DeleteIndex(items: seq<Item>, index: int): (r: Outcome)
    requires 0 <= index < |items|
    ensures |r.items| == |items| - 1
    ensures forall j :: 0 <= j < index ==> r.items[j] == items[j]
    ensures forall j :: index <= j < |r.items| ==> r.items[j] == items[j + 1]
    ensures r.log == [Delete([index]), HeightUpdate] && r.fired == 1
  {
    Outcome(RemoveAt(items, index), [Delete([index]), HeightUpdate], 1)
  }

  /**
    Each index is in bounds of the array as it stands at its turn, after the
    earlier indices have already been removed.
   */
  predicate RemovableInTurn(n: int, idxs: seq<int>)
    decreases |idxs|
  {
    idxs == [] || (0 <= idxs[0] < n && RemovableInTurn(n - 1, idxs[1..]))
  }

  /** `removeAtIndex` for each index in turn. */
  function RemoveInTurn(s: seq<Item>, idxs: seq<int>): (r: seq<Item>)
    requires RemovableInTurn(|s|, idxs)
    ensures |r| == |s| - |idxs|
    decreases |idxs|
  {
    if idxs == [] then s else RemoveInTurn(RemoveAt(s, idxs[0]), idxs[1..])
  }

  /**
    `delete(indexes)`: the indices are removed one after another against the
    already shrunk array, and reported to the view unchanged.
   */
  function DeleteIndexes(items: seq<Item>, idxs: seq<int>): (r: Outcome)
    requires RemovableInTurn(|items|, idxs)
    ensures |r.items| == |items| - |idxs|
    ensures r.log == [Delete(idxs), HeightUpdate] && r.fired == 1
  {
    Outcome(RemoveInTurn(items, idxs), [Delete(idxs), HeightUpdate], 1)
  }

  // ---------------------------------------------------------------- update

  /** A change that needs a reload rather than an in-place patch. */
  predicate NeedsReload(oldItem: Item, newItem: Item) {
    newItem.kind != oldItem.kind || newItem.height != oldItem.height
  }

  /**
    `update(item, index)`. Out of range (`spot.item(index)` is nil): nothing
    changes and the completion fires. Otherwise the item is stored and
    configured, then one of three paths runs: a composite cell configures
    itself; a change of kind or height reloads the row (or, animated and on
    screen, re-configures the cell) and updates the height; any other change
    re-configures a visible cell. The completion fires once on every path.
   */
  function Update(items: seq<Item>, item: Item, index: int, animated: bool,
                  cfg: Item -> Item, view: ViewOracle): (r: Outcome)
    ensures r.fired == 1
    ensures |r.items| == |items|
    ensures !(0 <= index < |items|) ==> r.items == items && r.log == []
    ensures 0 <= index < |items| ==>
              |r.log| > 0 && r.log[0] == Configure(index) &&
              forall j :: 0 <= j < |items| && j != index ==> r.items[j] == items[j]
    ensures 0 <= index < |items| && !view.composite(index) ==>
              (HeightUpdate in r.log <==> NeedsReload(items[index], cfg(item)))
    ensures 0 <= index < |items| && !view.composite(index) ==>
              (Reload([index]) in r.log <==>
                 NeedsReload(items[index], cfg(item)) && !(view.visible(index) && animated))
    ensures 0 <= index < |items| && view.composite(index) ==>
              r.items[index] == view.compositeConfigure(cfg(item))
    ensures 0 <= index < |items| && !view.composite(index) ==>
              r.items[index] == if view.visible(index) && (animated || !NeedsReload(items[index], cfg(item)))
                                then view.cellConfigure(cfg(item)) else cfg(item)
  {
    if !(0 <= index < |items|) then Outcome(items, [], 1)
    else
      var oldItem := items[index];
      var newItem := cfg(item);
      var configured := items[index := newItem];
      if view.composite(index) then
        Outcome(configured[index := view.compositeConfigure(newItem)],
                [Configure(index), CompositeConfigure(index), HeightUpdate], 1)
      else if NeedsReload(oldItem, newItem) then
        if view.visible(index) && animated then
          Outcome(configured[index := view.cellConfigure(newItem)],
                  [Configure(index), CellConfigure(index), HeightUpdate], 1)
        else
          Outcome(configured, [Configure(index), Reload([index]), HeightUpdate], 1)
      else if view.visible(index) then
        Outcome(configured[index := view.cellConfigure(newItem)],
                [Configure(index), CellConfigure(index)], 1)
      else
        Outcome(configured, [Configure(index)], 1)
  }

  /**
    Two updates of the same row: the second one decides what the row holds,
    unless the row is an on-screen plain cell updated without animation, whose
    result depends on whether the second item needs a reload relative to the first.
   */
  lemma UpdateLastWins(items: seq<Item>, first: Item, second: Item, index: int, animated: bool,
                       cfg: Item -> Item, view: ViewOracle)
    requires view.composite(index) || !view.visible(index) || animated
    ensures Update(Update(items, first, index, animated, cfg, view).items, second, index, animated, cfg, view).items ==
            Update(items, second, index, animated, cfg, view).items
  {
    var once := Update(items, first, index, animated, cfg, view).items;
    var twice := Update(once, second, index, animated, cfg, view).items;
    var direct := Update(items, second, index, animated, cfg, view).items;
    if 0 <= index < |items| {
      forall j | 0 <= j < |items| ensures twice[j] == direct[j] {
        if j != index {
          assert twice[j] == once[j] == items[j];
        }
      }
    }
  }

  // ---------------------------------------------------------------- reload

  /** `refreshIndexes`: every item's stored index becomes its position. */
  function RefreshIndexes(items: seq<Item>): (r: seq<Item>)
    ensures |r| == |items|
    ensures forall j :: 0 <= j < |items| ==> r[j] == items[j].(index := j)
  {
    seq(|items|, j requires 0 <= j < |items| => items[j].(index := j))
  }

  /**
    `reload(indexes)`: indices are refreshed, then the given rows (or all
    rows, when `indexes` is nil) are configured and reloaded. Reloading a row
    the table view does not have traps, hence the requirement.
   */
  function ReloadRows(items: seq<Item>, indexes: Option<seq<int>>, animated: bool,
                      cfg: Item -> Item): (r: Outcome)
    requires indexes.Some? ==> forall k :: 0 <= k < |indexes.value| ==> 0 <= indexes.value[k] < |items|
    ensures |r.items| == |items| && r.fired == 1
    ensures |r.log| == (if indexes.Some? then |indexes.value| else |items|) + 2
    ensures indexes.None? ==> forall j :: 0 <= j < |items| ==> r.items[j] == cfg(items[j].(index := j))
    ensures indexes.None? ==> r.log[|items|] == (if animated then ReloadSection else ReloadData)
    ensures indexes.Some? ==>
              forall j :: 0 <= j < |items| && j !in indexes.value ==> r.items[j] == items[j].(index := j)
    ensures indexes.Some? && (forall a, b :: 0 <= a < b < |indexes.value| ==> indexes.value[a] != indexes.value[b]) ==>
              forall j :: 0 <= j < |items| && j in indexes.value ==> r.items[j] == cfg(items[j].(index := j))
    ensures indexes.Some? ==> r.log[|indexes.value|] == Reload(indexes.value)
    ensures r.log[|r.log| - 1] == HeightUpdate
  {
    var refreshed := RefreshIndexes(items);
    match indexes
    case Some(idx) =>
      Outcome(ConfigureEach(refreshed, idx, cfg), Configures(idx) + [Reload(idx), HeightUpdate], 1)
    case None =>
      var all := Range(0, |items|);
      assert forall j :: 0 <= j < |items| ==> j in all by {
        forall j | 0 <= j < |items| ensures j in all { assert all[j] == j; }
      }
      Outcome(ConfigureEach(refreshed, all, cfg),
              Configures(all) + [if animated then ReloadSection else ReloadData, HeightUpdate], 1)
  }

  // ---------------------------------------------------------------- lemmas

  /** Deleting the index just inserted gives back the original items. */
  lemma InsertThenDeleteIndex(items: seq<Item>, item: Item, index: int)
    requires 0 <= index <= |items|
    ensures DeleteIndex(InsertItem(items, item, index).items, index).items == items
  {
    var inserted := InsertItem(items, item, index).items;
    assert RemoveAt(inserted, index) == items;
  }

  /** `delete(item)` removes exactly what `delete(index)` removes at the first equal position. */
  lemma DeleteItemIsDeleteFirstIndex(items: seq<Item>, item: Item)
    requires item in items
    ensures FirstIndexOf(items, item).Some?
    ensures DeleteItem(items, item) == DeleteIndex(items, FirstIndexOf(items, item).value)
  {
  }

  /** Appending one item through `append(items)` matches `append(item)` except for the log order. */
  lemma AppendOneIsAppendItem(items: seq<Item>, item: Item, cfg: Item -> Item)
    ensures AppendItems(items, [item], cfg).items == AppendItem(items, item, cfg).items
    ensures multiset(AppendItems(items, [item], cfg).log) == multiset(AppendItem(items, item, cfg).log)
  {
    var c := |items|;
    assert Range(c, c + 1) == [c];
    assert AppendItems(items, [item], cfg).log == [Configure(c), Insert([c]), HeightUpdate];
  }

  /** `prepend` onto an empty list yields the items `append` would. */
  lemma PrependMatchesAppend(xs: seq<Item>, cfg: Item -> Item)
    ensures Prepend([], xs, cfg).items == AppendItems([], xs, cfg).items
  {
    var prepended := Prepend([], xs, cfg).items;
    var appended := AppendItems([], xs, cfg).items;
    forall i | 0 <= i < |xs| ensures prepended[i] == appended[i] {
      assert appended[0 + i] == cfg(xs[i]);
    }
  }

  /** A countdown `n-1, …, 0` is the reverse of the count `m, …, m+n-1`, shifted down by `m`. */
  lemma CountdownReversesCount(p: seq<int>, a: seq<int>, n: int, m: int)
    requires |p| == n && |a| == n
    requires forall i :: 0 <= i < n ==> p[i] == n - 1 - i
    requires forall i :: 0 <= i < n ==> a[i] == m + i
    ensures forall i :: 0 <= i < |a| ==> p[i] == a[|a| - 1 - i] - m
  {
    forall i | 0 <= i < |a| ensures p[i] == a[|a| - 1 - i] - m {
      assert a[n - 1 - i] == m + n - 1 - i;
    }
  }

  /**
    `prepend` reports the indices `append` would report for the same items,
    in reverse order and shifted down by the length of the list: on an empty
    list, exactly the reversed indices of `append`.
   */
  lemma PrependReversesAppend(items: seq<Item>, xs: seq<Item>, cfg: Item -> Item)
    ensures var p := Prepend(items, xs, cfg).log[|xs|].indices;
            var a := AppendItems(items, xs, cfg).log[|xs|].indices;
            |p| == |a| && forall i :: 0 <= i < |a| ==> p[i] == a[|a| - 1 - i] - |items|
  {
    var p := Prepend(items, xs, cfg).log[|xs|].indices;
    var a := AppendItems(items, xs, cfg).log[|xs|].indices;
    CountdownReversesCount(p, a, |xs|, |items|);
  }

  /** The elements of `s` whose positions are not in `drop`, in order. */
  function Keep(s: seq<Item>, drop: set<int>): seq<Item>
  {
    if s == [] then [] else Keep(s[..|s| - 1], drop) + (if |s| - 1 in drop then [] else [s[|s| - 1]])
  }

  lemma {:induction false} KeepNothing(s: seq<Item>)
    ensures Keep(s, {}) == s
  {
    if s != [] {
      KeepNothing(s[..|s| - 1]);
    }
  }

  lemma {:induction false} KeepBeyond(s: seq<Item>, drop: set<int>, d: int)
    requires d >= |s|
    ensures Keep(s, drop + {d}) == Keep(s, drop)
  {
    if s != [] {
      KeepBeyond(s[..|s| - 1], drop, d);
    }
  }

  /** Removing position `d` and keeping the rest agree when every other dropped position lies below `d`. */
  lemma {:induction false} KeepRemoveAt(s: seq<Item>, drop: set<int>, d: int)
    requires 0 <= d < |s|
    requires forall x :: x in drop ==> x < d
    ensures Keep(RemoveAt(s, d), drop) == Keep(s, drop + {d})
    decreases |s|
  {
    var n := |s|;
    if d == n - 1 {
      assert RemoveAt(s, d) == s[..n - 1];
      KeepBeyond(s[..n - 1], drop, d);
    } else {
      var t := RemoveAt(s, d);
      assert t[..|t| - 1] == RemoveAt(s[..n - 1], d);
      assert t[|t| - 1] == s[n - 1];
      KeepRemoveAt(s[..n - 1], drop, d);
      assert n - 2 !in drop;
      assert n - 1 !in drop + {d};
    }
  }

  /** The set of values in `s`. */
  function Elements(s: seq<int>): set<int> {
    set x | x in s
  }

  predicate StrictlyDecreasing(idxs: seq<int>) {
    forall a, b :: 0 <= a < b < |idxs| ==> idxs[a] > idxs[b]
  }

  /**
    Removing strictly decreasing in-range indices one after another removes
    exactly those positions of the original array.
   */
  lemma {:induction false} RemoveDescending(items: seq<Item>, idxs: seq<int>)
    requires StrictlyDecreasing(idxs)
    requires forall k :: 0 <= k < |idxs| ==> 0 <= idxs[k] < |items|
    ensures RemovableInTurn(|items|, idxs)
    ensures RemoveInTurn(items, idxs) == Keep(items, Elements(idxs))
    decreases |idxs|
  {
    if idxs == [] {
      KeepNothing(items);
      assert Elements(idxs) == {};
    } else {
      var d := idxs[0];
      var rest := idxs[1..];
      var shorter := RemoveAt(items, d);
      DescendingTail(idxs);
      RemoveDescending(shorter, rest);
      assert RemoveInTurn(items, idxs) == RemoveInTurn(shorter, rest);
      KeepRemoveAt(items, Elements(rest), d);
      ElementsCons(d, rest, idxs);
    }
  }

  /** Every later entry of a strictly decreasing sequence lies below its head. */
  lemma DescendingTail(idxs: seq<int>)
    requires idxs != [] && StrictlyDecreasing(idxs)
    ensures StrictlyDecreasing(idxs[1..])
    ensures forall k :: 0 <= k < |idxs| - 1 ==> idxs[1..][k] < idxs[0]
    ensures forall x :: x in Elements(idxs[1..]) ==> x < idxs[0]
  {
    forall x | x in Elements(idxs[1..]) ensures x < idxs[0] {
      var k :| 0 <= k < |idxs[1..]| && idxs[1..][k] == x;
      assert idxs[k + 1] == x;
    }
  }

  lemma ElementsCons(d: int, rest: seq<int>, s: seq<int>)
    requires s == [d] + rest
    ensures Elements(s) == Elements(rest) + {d}
  {
    assert forall y :: y in s <==> y == d || y in rest;
  }

  /** `delete(indexes)` with strictly decreasing indices deletes exactly those rows. */
  lemma DeleteIndexesDescending(items: seq<Item>, idxs: seq<int>)
    requires StrictlyDecreasing(idxs)
    requires forall k :: 0 <= k < |idxs| ==> 0 <= idxs[k] < |items|
    ensures RemovableInTurn(|items|, idxs)
    ensures DeleteIndexes(items, idxs).items == Keep(items, Elements(idxs))
  {
    RemoveDescending(items, idxs);
  }

  /**
    Where the `j`-th row left after removing `idxs` in turn stood in the
    original list: undoing each removal, last first, moves a position at or
    above the removed index up by one.
   */
  function OriginalPosition(idxs: seq<int>, j: int): int
    decreases |idxs|
  {
    if idxs == [] then j
    else
      var q := OriginalPosition(idxs[1..], j);
      if q < idxs[0] then q else q + 1
  }

  /** For any indices, the rows left by removing them in turn are the original rows at their original positions. */
  lemma {:induction false} RemoveInTurnPositions(s: seq<Item>, idxs: seq<int>)
    requires RemovableInTurn(|s|, idxs)
    ensures forall j :: 0 <= j < |s| - |idxs| ==>
              0 <= OriginalPosition(idxs, j) < |s| && RemoveInTurn(s, idxs)[j] == s[OriginalPosition(idxs, j)]
    decreases |idxs|
  {
    if idxs != [] {
      var t := RemoveAt(s, idxs[0]);
      RemoveInTurnPositions(t, idxs[1..]);
      assert RemoveInTurn(s, idxs) == RemoveInTurn(t, idxs[1..]);
      forall j | 0 <= j < |s| - |idxs|
        ensures 0 <= OriginalPosition(idxs, j) < |s| && RemoveInTurn(s, idxs)[j] == s[OriginalPosition(idxs, j)]
      {
        var q := OriginalPosition(idxs[1..], j);
        assert 0 <= q < |t| && RemoveInTurn(t, idxs[1..])[j] == t[q];
      }
    }
  }

  /**
    As written, `delete(indexes)` with ascending indices removes other rows
    than it reports: on `[a, b, c]` with `[0, 1]` it keeps `b`, while the view
    is told to delete rows 0 and 1 and so keeps `c`.
   */
  lemma DeleteIndexesAscendingMismatch(a: Item, b: Item, c: Item)
    requires b != c
    ensures RemovableInTurn(3, [0, 1])
    ensures var r := DeleteIndexes([a, b, c], [0, 1]);
            r.items == [b] && r.log[0] == Delete([0, 1]) &&
            Keep([a, b, c], Elements(r.log[0].indices)) == [c] && r.items != [c]
  {
    var idxs := [0, 1];
    assert idxs[1..] == [1] && [1][1..] == [];
    assert RemovableInTurn(2, [1]);
    assert RemoveAt([a, b, c], 0) == [b, c];
    assert RemoveAt([b, c], 1) == [b];
    assert RemoveInTurn([b, c], [1]) == RemoveInTurn([b], []);
    var d := Elements(idxs);
    assert d == {0, 1};
    assert [a, b, c][..2] == [a, b] && [a, b][..1] == [a] && [a][..0] == [];
    assert Keep([a], d) == [];
    assert Keep([a, b], d) == [];
  }

  /**
    `delete(indexes)` as evidently intended: the reported rows are the rows
    of the list as it was, and exactly those are removed, whatever the order
    of the indices.
   */
  function DeleteIndexesCorrected(items: seq<Item>, idxs: seq<int>): (r: Outcome)
    requires forall k :: 0 <= k < |idxs| ==> 0 <= idxs[k] < |items|
    ensures r.log == [Delete(idxs), HeightUpdate] && r.fired == 1
    ensures r.items == Keep(items, Elements(r.log[0].indices))
  {
    Outcome(Keep(items, Elements(idxs)), [Delete(idxs), HeightUpdate], 1)
  }

  /** The correction changes nothing for strictly decreasing indices, where the source already removes the reported rows. */
  lemma DeleteIndexesCorrectedAgrees(items: seq<Item>, idxs: seq<int>)
    requires StrictlyDecreasing(idxs)
    requires forall k :: 0 <= k < |idxs| ==> 0 <= idxs[k] < |items|
    ensures RemovableInTurn(|items|, idxs)
    ensures DeleteIndexesCorrected(items, idxs) == DeleteIndexes(items, idxs)
  {
    RemoveDescending(items, idxs);
  }

  // ------------------------------------------------ delete(items), corrected

  /** The positions of `s` holding one of `xs`, ascending. */
  function PositionsIn(s: seq<Item>, xs: seq<Item>): (r: seq<int>)
    ensures forall k :: 0 <= k < |r| ==> 0 <= r[k] < |s| && s[r[k]] in xs
    ensures forall j :: 0 <= j < |s| && s[j] in xs ==> j in r
    ensures forall a, b :: 0 <= a < b < |r| ==> r[a] < r[b]
  {
    if s == [] then []
    else
      var r := PositionsIn(s[..|s| - 1], xs);
      if s[|s| - 1] in xs then r + [|s| - 1] else r
  }

  /** Appending one index adds exactly that index to the set of elements. */
  lemma ElementsSnoc(r: seq<int>, x: int)
    ensures Elements(r + [x]) == Elements(r) + {x}
  {
    assert forall y :: y in r + [x] <==> y in r || y == x;
  }

  /** Keeping the positions that do not hold one of `xs` keeps exactly the other elements. */
  lemma {:induction false} KeepPositionsIn(s: seq<Item>, xs: seq<Item>)
    ensures var kept := Keep(s, Elements(PositionsIn(s, xs)));
            |kept| + |PositionsIn(s, xs)| == |s| && forall y :: y in kept ==> y !in xs
  {
    if s != [] {
      var n := |s|;
      var prefix := s[..n - 1];
      var r := PositionsIn(prefix, xs);
      var kr := Keep(prefix, Elements(r));
      KeepPositionsIn(prefix, xs);
      if s[n - 1] in xs {
        assert PositionsIn(s, xs) == r + [n - 1];
        ElementsSnoc(r, n - 1);
        KeepBeyond(prefix, Elements(r), n - 1);
        assert Keep(s, Elements(r) + {n - 1}) == kr;
      } else {
        assert PositionsIn(s, xs) == r;
        assert n - 1 !in Elements(r);
        assert Keep(s, Elements(r)) == kr + [s[n - 1]];
      }
    }
  }

  /**
    `delete(items)` as evidently intended: every row holding one of the items
    is removed, and the removed rows are reported by their positions before
    the removal, in ascending order.
   */
  function DeleteItemsCorrected(items: seq<Item>, xs: seq<Item>): (r: Outcome)
    ensures forall y :: y in r.items ==> y !in xs
    ensures |r.log| == 2 && r.log[0].Delete? && r.log[1] == HeightUpdate
    ensures |r.items| + |r.log[0].indices| == |items|
    ensures forall j :: 0 <= j < |items| ==> (j in r.log[0].indices <==> items[j] in xs)
    ensures r.items == Keep(items, Elements(r.log[0].indices))
    ensures r.fired == 1
  {
    var idx := PositionsIn(items, xs);
    KeepPositionsIn(items, xs);
    Outcome(Keep(items, Elements(idx)), [Delete(idx), HeightUpdate], 1)
  }

  /** As written, `delete(items)` grows the list and reports rows that were not there before. */
  lemma DeleteItemsGrows(items: seq<Item>, xs: seq<Item>)
    requires xs != []
    ensures |DeleteItems(items, xs).items| > |items|
    ensures forall k :: 0 <= k < |xs| ==> DeleteItems(items, xs).log[0].indices[k] >= |items|
  {
  }
}

=== FILE: list_process.dfy ===
/**
  The completion fan-in of a list component: `process(updates)` re-runs
  `update` on each listed index and lets only the update of the LAST listed
  index, or an index with no item, fire the shared completion; and
  `reloadIfNeeded(changes)` chains a structural batch, the updates and the
  updates of composite children.

  Completions are continuations here: `completion` is what the caller's completion
  does with the items as they stand when it fires, so a completion that
  itself processes more rows (as in `reloadIfNeeded`) runs exactly where and
  as often as the source runs it.
 */
module ListProcess {
  import opened Items
  import opened ListAdapter
  import Diff

  /** A plain caller completion: it fires once and changes nothing. */
  function Done(s: seq<Item>): Outcome {
    Outcome(s, [], 1)
  }

  /**
    One turn of the loop of `process` at `index`: an index without an item
    fires the completion at once; otherwise the row is updated, and the
    update's own completion fires the caller's only for the last index.
   */
  function Step(items: seq<Item>, index: int, last: int, animated: bool,
                cfg: Item -> Item, view: ViewOracle, completion: seq<Item> -> Outcome): Outcome
  {
    if !(0 <= index < |items|) then completion(items)
    else
      var u := Update(items, items[index], index, animated, cfg, view);
      if index == last then
        var k := completion(u.items);
        Outcome(k.items, u.log + k.log, k.fired)
      else
        Outcome(u.items, u.log, 0)
  }

  /** The loop of `process` over `updates`, with `last` the final listed index. */
  function ProcessFrom(items: seq<Item>, updates: seq<int>, last: int, animated: bool,
                       cfg: Item -> Item, view: ViewOracle, completion: seq<Item> -> Outcome): Outcome
    decreases |updates|
  {
    if updates == [] then Outcome(items, [], 0)
    else
      var step := Step(items, updates[0], last, animated, cfg, view, completion);
      var rest := ProcessFrom(step.items, updates[1..], last, animated, cfg, view, completion);
      Outcome(rest.items, step.log + rest.log, step.fired + rest.fired)
  }

  /** `process(updates, completion)`; an empty list runs the completion at once. */
  function ProcessThen(items: seq<Item>, updates: seq<int>, animated: bool,
                       cfg: Item -> Item, view: ViewOracle, completion: seq<Item> -> Outcome): Outcome
  {
    if updates == [] then completion(items)
    else ProcessFrom(items, updates, updates[|updates| - 1], animated, cfg, view, completion)
  }

  /** How many listed indices have no item in a list of `n`. */
  function Missing(updates: seq<int>, n: int): nat {
    if updates == [] then 0
    else (if 0 <= updates[0] < n then 0 else 1) + Missing(updates[1..], n)
  }

  /**
    How often `process(updates)` fires its completion on a list of `n` items:
    once for an empty list; otherwise once per missing index plus once per
    occurrence of the last index when that index has an item.
   */
  function Firings(updates: seq<int>, n: int): nat {
    if updates == [] then 1
    else Hits(updates, n, updates[|updates| - 1])
  }

  /** A turn keeps the length and fires the completion (of weight `c`) when its index is missing or last. */
  lemma StepFires(items: seq<Item>, index: int, last: int, animated: bool,
                  cfg: Item -> Item, view: ViewOracle, completion: seq<Item> -> Outcome, c: nat)
    requires forall s: seq<Item> :: |s| == |items| ==> |completion(s).items| == |s| && completion(s).fired == c
    ensures |Step(items, index, last, animated, cfg, view, completion).items| == |items|
    ensures Step(items, index, last, animated, cfg, view, completion).fired ==
            if !(0 <= index < |items|) || index == last then c else 0
  {
    if 0 <= index < |items| {
      var u := Update(items, items[index], index, animated, cfg, view);
      assert |u.items| == |items|;
    }
  }

  lemma Distribute(c: nat, a: nat, b: nat)
    ensures c * (a + b) == c * a + c * b
  {
  }

  /** How often the loop over `updates` reaches the completion: at each missing index and each valid `last`. */
  function Hits(updates: seq<int>, n: int, last: int): nat {
    Missing(updates, n) + (if 0 <= last < n then multiset(updates)[last] else 0)
  }

  lemma HitsCons(updates: seq<int>, n: int, last: int)
    requires updates != []
    ensures Hits(updates, n, last) ==
            (if !(0 <= updates[0] < n) || updates[0] == last then 1 else 0) + Hits(updates[1..], n, last)
  {
    assert updates == [updates[0]] + updates[1..];
    assert multiset(updates) == multiset{updates[0]} + multiset(updates[1..]);
  }

  /** One turn of the loop followed by the rest of the loop. */
  lemma ProcessFromCons(items: seq<Item>, updates: seq<int>, last: int, animated: bool,
                        cfg: Item -> Item, view: ViewOracle, completion: seq<Item> -> Outcome)
    requires updates != []
    ensures var step := Step(items, updates[0], last, animated, cfg, view, completion);
            var rest := ProcessFrom(step.items, updates[1..], last, animated, cfg, view, completion);
            var whole := ProcessFrom(items, updates, last, animated, cfg, view, completion);
            whole.items == rest.items && whole.log == step.log + rest.log && whole.fired == step.fired + rest.fired
  {
  }

  /** A turn at an index with an item: the update, then the completion only if the index is `last`. */
  lemma StepValid(items: seq<Item>, index: int, last: int, animated: bool,
                  cfg: Item -> Item, view: ViewOracle, completion: seq<Item> -> Outcome)
    requires 0 <= index < |items|
    ensures var u := Update(items, items[index], index, animated, cfg, view);
            var step := Step(items, index, last, animated, cfg, view, completion);
            if index == last then step.items == completion(u.items).items && step.log == u.log + completion(u.items).log
            else step.items == u.items && step.log == u.log
  {
  }

  /** Weighting the hits of `updates` by `c`, given the weighted hits of its tail. */
  lemma WeightedHits(updates: seq<int>, n: int, last: int, c: nat, stepFired: nat, restFired: nat)
    requires updates != []
    requires stepFired == if !(0 <= updates[0] < n) || updates[0] == last then c else 0
    requires restFired == c * Hits(updates[1..], n, last)
    ensures stepFired + restFired == c * Hits(updates, n, last)
  {
    HitsCons(updates, n, last);
    var hr := Hits(updates[1..], n, last);
    if !(0 <= updates[0] < n) || updates[0] == last {
      Distribute(c, 1, hr);
    }
  }

  /** The loop fires a completion of constant weight `c` once per missing index and per valid occurrence of `last`. */
  lemma {:induction false} ProcessFromFires(items: seq<Item>, updates: seq<int>, last: int, animated: bool,
                                            cfg: Item -> Item, view: ViewOracle,
                                            completion: seq<Item> -> Outcome, c: nat)
    requires forall s: seq<Item> :: |s| == |items| ==> |completion(s).items| == |s| && completion(s).fired == c
    ensures |ProcessFrom(items, updates, last, animated, cfg, view, completion).items| == |items|
    ensures ProcessFrom(items, updates, last, animated, cfg, view, completion).fired == c * Hits(updates, |items|, last)
    decreases |updates|
  {
    if updates != [] {
      var step := Step(items, updates[0], last, animated, cfg, view, completion);
      StepFires(items, updates[0], last, animated, cfg, view, completion, c);
      ProcessFromFires(step.items, updates[1..], last, animated, cfg, view, completion, c);
      var rest := ProcessFrom(step.items, updates[1..], last, animated, cfg, view, completion);
      ProcessFromCons(items, updates, last, animated, cfg, view, completion);
      WeightedHits(updates, |items|, last, c, step.fired, rest.fired);
    }
  }

  /** `process` with a completion of weight `c` fires it `c` times per firing of a plain completion. */
  lemma ProcessThenFires(items: seq<Item>, updates: seq<int>, animated: bool, cfg: Item -> Item, view: ViewOracle,
                         completion: seq<Item> -> Outcome, c: nat)
    requires updates != []
    requires forall s: seq<Item> :: |s| == |items| ==> |completion(s).items| == |s| && completion(s).fired == c
    ensures |ProcessThen(items, updates, animated, cfg, view, completion).items| == |items|
    ensures ProcessThen(items, updates, animated, cfg, view, completion).fired == c * Firings(updates, |items|)
  {
    ProcessFromFires(items, updates, updates[|updates| - 1], animated, cfg, view, completion, c);
  }

  /** What `update` leaves at row `j` depends on that row alone, not on the rest of the list. */
  lemma UpdateRowLocal(a: seq<Item>, b: seq<Item>, item: Item, j: int, animated: bool,
                       cfg: Item -> Item, view: ViewOracle)
    requires |a| == |b| && 0 <= j < |a| && a[j] == b[j]
    ensures Update(a, item, j, animated, cfg, view).items[j] == Update(b, item, j, animated, cfg, view).items[j]
  {
  }

  /** The loop with a plain completion keeps the length and leaves every unlisted row alone. */
  lemma {:induction false} ProcessFromFrame(items: seq<Item>, updates: seq<int>, last: int, animated: bool,
                                            cfg: Item -> Item, view: ViewOracle)
    ensures var r := ProcessFrom(items, updates, last, animated, cfg, view, Done);
            |r.items| == |items| && forall j :: 0 <= j < |items| && j !in updates ==> r.items[j] == items[j]
    decreases |updates|
  {
    if updates != [] {
      var i := updates[0];
      var step := Step(items, i, last, animated, cfg, view, Done);
      ProcessFromFrame(step.items, updates[1..], last, animated, cfg, view);
      forall j | 0 <= j < |items| && j !in updates ensures j != i && j !in updates[1..] {
        assert updates == [i] + updates[1..];
      }
    }
  }

  /**
    The loop with a plain completion leaves a row listed once as `update` of
    that row with its own item leaves it, with a `Configure` of the row in
    the log.
   */
  lemma {:induction false} ProcessFromRows(items: seq<Item>, updates: seq<int>, last: int, animated: bool,
                                           cfg: Item -> Item, view: ViewOracle)
    ensures var r := ProcessFrom(items, updates, last, animated, cfg, view, Done);
            |r.items| == |items| &&
            forall j :: 0 <= j < |items| && multiset(updates)[j] == 1 ==>
              r.items[j] == Update(items, items[j], j, animated, cfg, view).items[j] && Configure(j) in r.log
    decreases |updates|
  {
    if updates != [] {
      var i := updates[0];
      var tail := updates[1..];
      assert updates == [i] + tail;
      assert multiset(updates) == multiset{i} + multiset(tail);
      var step := Step(items, i, last, animated, cfg, view, Done);
      ProcessFromRows(step.items, tail, last, animated, cfg, view);
      ProcessFromFrame(step.items, tail, last, animated, cfg, view);
      ProcessFromCons(items, updates, last, animated, cfg, view, Done);
      var r := ProcessFrom(items, updates, last, animated, cfg, view, Done);
      if 0 <= i < |items| {
        StepValid(items, i, last, animated, cfg, view, Done);
        ListedRowAfterStep(items, i, last, animated, cfg, view);
        forall j | 0 <= j < |items| && multiset(updates)[j] == 1
          ensures r.items[j] == Update(items, items[j], j, animated, cfg, view).items[j] && Configure(j) in r.log
        {
          if j == i {
            assert j !in tail;
          } else {
            UpdateRowLocal(step.items, items, items[j], j, animated, cfg, view);
          }
        }
      } else {
        assert step.items == items && step.log == [];
      }
    }
  }

  /** After a turn at a row with an item, that row holds the update's result, the others are unchanged, and the row is configured. */
  lemma ListedRowAfterStep(items: seq<Item>, i: int, last: int, animated: bool, cfg: Item -> Item, view: ViewOracle)
    requires 0 <= i < |items|
    ensures var step := Step(items, i, last, animated, cfg, view, Done);
            |step.items| == |items| &&
            step.items[i] == Update(items, items[i], i, animated, cfg, view).items[i] &&
            (forall j :: 0 <= j < |items| && j != i ==> step.items[j] == items[j]) &&
            Configure(i) in step.log
  {
    var u := Update(items, items[i], i, animated, cfg, view);
    StepValid(items, i, last, animated, cfg, view, Done);
    assert u.log[0] == Configure(i);
  }

  /**
    When every listed index has an item and only the final one is `last`, the
    loop runs the completion once, after every update: the same as running the
    loop with a plain completion and then the completion on its result.
   */
  lemma {:induction false} ProcessFromThenCompletion(items: seq<Item>, updates: seq<int>, last: int, animated: bool,
                                                     cfg: Item -> Item, view: ViewOracle,
                                                     completion: seq<Item> -> Outcome)
    requires updates != [] && updates[|updates| - 1] == last
    requires forall k :: 0 <= k < |updates| ==> 0 <= updates[k] < |items|
    requires forall k :: 0 <= k < |updates| - 1 ==> updates[k] != last
    ensures var plain := ProcessFrom(items, updates, last, animated, cfg, view, Done);
            var k := completion(plain.items);
            var r := ProcessFrom(items, updates, last, animated, cfg, view, completion);
            r.items == k.items && r.log == plain.log + k.log
    decreases |updates|
  {
    var i := updates[0];
    if |updates| == 1 {
      ThenCompletionLast(items, updates, last, animated, cfg, view, completion);
    } else {
      var u := Update(items, items[i], i, animated, cfg, view);
      ProcessFromThenCompletion(u.items, updates[1..], last, animated, cfg, view, completion);
      ThenCompletionCons(items, updates, last, animated, cfg, view, completion);
    }
  }

  /** The final turn, at `last`, runs the update and then the completion. */
  lemma ThenCompletionLast(items: seq<Item>, updates: seq<int>, last: int, animated: bool,
                           cfg: Item -> Item, view: ViewOracle, completion: seq<Item> -> Outcome)
    requires updates == [last] && 0 <= last < |items|
    ensures var plain := ProcessFrom(items, updates, last, animated, cfg, view, Done);
            var k := completion(plain.items);
            var r := ProcessFrom(items, updates, last, animated, cfg, view, completion);
            r.items == k.items && r.log == plain.log + k.log
  {
    StepValid(items, last, last, animated, cfg, view, Done);
    StepValid(items, last, last, animated, cfg, view, completion);
    ProcessFromCons(items, updates, last, animated, cfg, view, Done);
    ProcessFromCons(items, updates, last, animated, cfg, view, completion);
    assert updates[1..] == [];
  }

  /** An earlier turn runs the update alone, so the completion still comes after the rest of the loop. */
  lemma ThenCompletionCons(items: seq<Item>, updates: seq<int>, last: int, animated: bool,
                           cfg: Item -> Item, view: ViewOracle, completion: seq<Item> -> Outcome)
    requires |updates| > 1 && 0 <= updates[0] < |items| && updates[0] != last
    requires var u := Update(items, items[updates[0]], updates[0], animated, cfg, view);
             var plain := ProcessFrom(u.items, updates[1..], last, animated, cfg, view, Done);
             var r := ProcessFrom(u.items, updates[1..], last, animated, cfg, view, completion);
             r.items == completion(plain.items).items && r.log == plain.log + completion(plain.items).log
    ensures var plain := ProcessFrom(items, updates, last, animated, cfg, view, Done);
            var k := completion(plain.items);
            var r := ProcessFrom(items, updates, last, animated, cfg, view, completion);
            r.items == k.items && r.log == plain.log + k.log
  {
    var i := updates[0];
    var u := Update(items, items[i], i, animated, cfg, view);
    StepValid(items, i, last, animated, cfg, view, Done);
    StepValid(items, i, last, animated, cfg, view, completion);
    ProcessFromCons(items, updates, last, animated, cfg, view, Done);
    ProcessFromCons(items, updates, last, animated, cfg, view, completion);
    var plainRest := ProcessFrom(u.items, updates[1..], last, animated, cfg, view, Done);
    var k := completion(plainRest.items);
    assert u.log + (plainRest.log + k.log) == (u.log + plainRest.log) + k.log;
  }

  /** An index listed once, last, appears nowhere before the end. */
  lemma LastListedOnce(updates: seq<int>)
    requires updates != [] && multiset(updates)[updates[|updates| - 1]] == 1
    ensures forall k :: 0 <= k < |updates| - 1 ==> updates[k] != updates[|updates| - 1]
  {
    var n := |updates|;
    assert updates == updates[..n - 1] + [updates[n - 1]];
    assert multiset(updates) == multiset(updates[..n - 1]) + multiset{updates[n - 1]};
    assert updates[n - 1] !in multiset(updates[..n - 1]);
    forall k | 0 <= k < n - 1 ensures updates[k] != updates[n - 1] {
      assert updates[k] == updates[..n - 1][k];
      assert updates[k] in multiset(updates[..n - 1]);
    }
  }

  /** `process(updates)` with a plain completion; the count of firings is `Firings`. */
  function Process(items: seq<Item>, updates: seq<int>, animated: bool,
                   cfg: Item -> Item, view: ViewOracle): (r: Outcome)
    ensures updates == [] ==> r == Outcome(items, [], 1)
    ensures |r.items| == |items|
    ensures r.fired == Firings(updates, |items|)
    ensures forall j :: 0 <= j < |items| && j !in updates ==> r.items[j] == items[j]
    ensures forall j :: 0 <= j < |items| && multiset(updates)[j] == 1 ==>
              r.items[j] == Update(items, items[j], j, animated, cfg, view).items[j] && Configure(j) in r.log
  {
    if updates == [] then ProcessThen(items, updates, animated, cfg, view, Done)
    else
      ProcessFromFires(items, updates, updates[|updates| - 1], animated, cfg, view, Done, 1);
      ProcessFromFrame(items, updates, updates[|updates| - 1], animated, cfg, view);
      ProcessFromRows(items, updates, updates[|updates| - 1], animated, cfg, view);
      ProcessThen(items, updates, animated, cfg, view, Done)
  }

  /** The completion `reloadIfNeeded` hands to `process(updates)`: process the updated children. */
  function ProcessChildren(children: seq<int>, animated: bool, cfg: Item -> Item, view: ViewOracle): seq<Item> -> Outcome {
    (s: seq<Item>) => Process(s, children, animated, cfg, view)
  }

  /** On lists of `n` rows the children completion keeps the length and fires `Firings(children, n)` times. */
  lemma ChildrenWeight(children: seq<int>, animated: bool, cfg: Item -> Item, view: ViewOracle, n: int)
    ensures forall s: seq<Item> :: |s| == n ==>
              |ProcessChildren(children, animated, cfg, view)(s).items| == |s| &&
              ProcessChildren(children, animated, cfg, view)(s).fired == Firings(children, n)
  {
  }

  /**
    `reloadIfNeeded(changes)`: the table view applies insertions, reloads and
    deletions as one batch around the caller's data-source update (whose
    result is `newItems`) and then runs its completion once; that completion
    processes the updates (with the default animation) and, each time their
    completion fires, processes the updated children.
   */
  function ReloadIfNeeded(changes: Diff.ItemChanges, newItems: seq<Item>, animated: bool,
                          cfg: Item -> Item, view: ViewOracle): (r: Outcome)
    ensures |r.items| == |newItems|
    ensures |r.log| > 0 && r.log[0] == Batch(changes.insertions, changes.reloads, changes.deletions)
    ensures r.fired == if changes.updates == [] then Firings(changes.updatedChildren, |newItems|)
                       else Firings(changes.updatedChildren, |newItems|) * Firings(changes.updates, |newItems|)
  {
    var children := ProcessChildren(changes.updatedChildren, animated, cfg, view);
    var batch := Batch(changes.insertions, changes.reloads, changes.deletions);
    if changes.updates == [] then
      var r := children(newItems);
      Outcome(r.items, [batch] + r.log, r.fired)
    else
      var u := changes.updates;
      ChildrenWeight(changes.updatedChildren, animated, cfg, view, |newItems|);
      ProcessThenFires(newItems, u, true, cfg, view, children, Firings(changes.updatedChildren, |newItems|));
      var r := ProcessThen(newItems, u, true, cfg, view, children);
      Outcome(r.items, [batch] + r.log, r.fired)
  }

  // ---------------------------------------------------------------- lemmas

  /** With updates, `reloadIfNeeded` is the batch followed by `process(updates)` chained to the children. */
  lemma ReloadIfNeededUnfold(changes: Diff.ItemChanges, newItems: seq<Item>, animated: bool,
                             cfg: Item -> Item, view: ViewOracle)
    requires changes.updates != []
    ensures var u := changes.updates;
            var p := ProcessFrom(newItems, u, u[|u| - 1], true, cfg, view,
                                 ProcessChildren(changes.updatedChildren, animated, cfg, view));
            var r := ReloadIfNeeded(changes, newItems, animated, cfg, view);
            r.items == p.items && r.log == [Batch(changes.insertions, changes.reloads, changes.deletions)] + p.log
  {
  }

  /**
    The sequencing of `reloadIfNeeded` when every update has a row and the
    last update is listed once: the batch, then the updates (with the default
    animation), then the children of the rows as the updates left them.
   */
  lemma ReloadIfNeededSequence(changes: Diff.ItemChanges, newItems: seq<Item>, animated: bool,
                               cfg: Item -> Item, view: ViewOracle)
    requires changes.updates != []
    requires forall k :: 0 <= k < |changes.updates| ==> 0 <= changes.updates[k] < |newItems|
    requires multiset(changes.updates)[changes.updates[|changes.updates| - 1]] == 1
    ensures var updated := Process(newItems, changes.updates, true, cfg, view);
            var children := Process(updated.items, changes.updatedChildren, animated, cfg, view);
            var r := ReloadIfNeeded(changes, newItems, animated, cfg, view);
            r.items == children.items &&
            r.log == [Batch(changes.insertions, changes.reloads, changes.deletions)] + updated.log + children.log
  {
    var u := changes.updates;
    var last := u[|u| - 1];
    var completion := ProcessChildren(changes.updatedChildren, animated, cfg, view);
    LastListedOnce(u);
    ReloadIfNeededUnfold(changes, newItems, animated, cfg, view);
    ProcessFromThenCompletion(newItems, u, last, true, cfg, view, completion);
    ProcessIsPlainLoop(newItems, u, true, cfg, view);
    var updated := Process(newItems, u, true, cfg, view);
    ProcessChildrenApply(changes.updatedChildren, animated, cfg, view, updated.items);
    SequenceAssemble(ReloadIfNeeded(changes, newItems, animated, cfg, view),
                     ProcessFrom(newItems, u, last, true, cfg, view, completion),
                     updated, Process(updated.items, changes.updatedChildren, animated, cfg, view),
                     Batch(changes.insertions, changes.reloads, changes.deletions));
  }

  /** A non-empty `process` is the loop with the plain completion. */
  lemma ProcessIsPlainLoop(items: seq<Item>, updates: seq<int>, animated: bool, cfg: Item -> Item, view: ViewOracle)
    requires updates != []
    ensures var plain := ProcessFrom(items, updates, updates[|updates| - 1], animated, cfg, view, Done);
            Process(items, updates, animated, cfg, view).items == plain.items &&
            Process(items, updates, animated, cfg, view).log == plain.log
  {
  }

  /** The children completion applied to a list is `process(updatedChildren)` on it. */
  lemma ProcessChildrenApply(children: seq<int>, animated: bool, cfg: Item -> Item, view: ViewOracle, s: seq<Item>)
    ensures ProcessChildren(children, animated, cfg, view)(s) == Process(s, children, animated, cfg, view)
  {
  }

  /** Putting the batch in front of a loop that is the updates followed by the children. */
  lemma SequenceAssemble(r: Outcome, looped: Outcome, updated: Outcome, children: Outcome, batch: ViewOp)
    requires r.items == looped.items && r.log == [batch] + looped.log
    requires looped.items == children.items && looped.log == updated.log + children.log
    ensures r.items == children.items && r.log == [batch] + updated.log + children.log
  {
    assert [batch] + (updated.log + children.log) == [batch] + updated.log + children.log;
  }

  /** Every index has an item and the last one is listed once: one firing. */
  lemma ProcessFiresOnce(items: seq<Item>, updates: seq<int>, animated: bool,
                         cfg: Item -> Item, view: ViewOracle)
    requires updates != []
    requires forall k :: 0 <= k < |updates| ==> 0 <= updates[k] < |items|
    requires multiset(updates)[updates[|updates| - 1]] == 1
    ensures Process(items, updates, animated, cfg, view).fired == 1
  {
    NoneMissing(updates, |items|);
  }

  lemma {:induction false} NoneMissing(updates: seq<int>, n: int)
    requires forall k :: 0 <= k < |updates| ==> 0 <= updates[k] < n
    ensures Missing(updates, n) == 0
  {
    if updates != [] {
      NoneMissing(updates[1..], n);
    }
  }

  lemma {:induction false} MissingConcat(a: seq<int>, b: seq<int>, n: int)
    ensures Missing(a + b, n) == Missing(a, n) + Missing(b, n)
    decreases |a|
  {
    if a == [] {
      assert a + b == b;
    } else {
      assert (a + b)[1..] == a[1..] + b;
      MissingConcat(a[1..], b, n);
    }
  }

  lemma MissingInserted(before: seq<int>, bad: int, after: seq<int>, n: int)
    requires !(0 <= bad < n)
    ensures Missing(before + [bad] + after, n) == Missing(before + after, n) + 1
  {
    assert before + [bad] + after == before + ([bad] + after);
    assert ([bad] + after)[1..] == after;
    MissingConcat(before, [bad] + after, n);
    MissingConcat(before, after, n);
  }

  /**
    Listing one more index without an item anywhere but last adds exactly
    one firing: the loop fires at once for it, and the last index, which
    decides the other firings, stays the same.
   */
  lemma MissingIndexFiresAgain(items: seq<Item>, bad: int, before: seq<int>, after: seq<int>,
                               animated: bool, cfg: Item -> Item, view: ViewOracle)
    requires after != []
    requires !(0 <= bad < |items|)
    ensures Process(items, before + [bad] + after, animated, cfg, view).fired ==
            Process(items, before + after, animated, cfg, view).fired + 1
  {
    var n := |items|;
    var u := before + [bad] + after;
    var v := before + after;
    MissingInserted(before, bad, after, n);
    assert u[|u| - 1] == after[|after| - 1] == v[|v| - 1];
    assert multiset(u) == multiset(v) + multiset{bad};
  }

  /**
    Listing an index without an item LAST displaces the valid last index: the
    completion then fires only once per missing index, however often the
    previous last index was listed (`process([0, 99])` on one item fires once,
    just as `process([0])` does).
   */
  lemma MissingLastIndexDisplaces(items: seq<Item>, updates: seq<int>, bad: int,
                                  animated: bool, cfg: Item -> Item, view: ViewOracle)
    requires !(0 <= bad < |items|)
    ensures Process(items, updates + [bad], animated, cfg, view).fired == Missing(updates, |items|) + 1
  {
    var u := updates + [bad];
    assert u[|u| - 1] == bad;
    MissingConcat(updates, [bad], |items|);
    assert [bad][1..] == [];
  }

  /** An empty change set runs one empty batch and fires the completion once. */
  lemma EmptyChangesFireOnce(newItems: seq<Item>, animated: bool, cfg: Item -> Item, view: ViewOracle)
    ensures var r := ReloadIfNeeded(Diff.ItemChanges([], [], [], [], []), newItems, animated, cfg, view);
            r.items == newItems && r.log == [Batch([], [], [])] && r.fired == 1
  {
  }

  /** Appended items are inserted by the differ at exactly their positions, and nothing else changes. */
  lemma AppendedChanges(before: seq<Item>, xs: seq<Item>)
    ensures var p := Diff.ProcessChanges(Diff.Evaluate(before + xs, before));
            p.updates == [] && p.reloads == [] && p.deletions == [] && p.updatedChildren == [] &&
            forall i :: i in p.insertions <==> |before| <= i < |before| + |xs|
  {
    var c := Diff.Evaluate(before + xs, before);
    Diff.EvaluateAppended(before, xs);
    assert multiset(c)[Diff.Kind] == 0 && multiset(c)[Diff.Title] == 0 && multiset(c)[Diff.Removed] == 0;
  }

  /**
    The insertions the differ computes for items appended to a list are the
    very indices `append(items)` inserts; nothing else changes.
   */
  lemma AppendMatchesDiff(before: seq<Item>, xs: seq<Item>, cfg: Item -> Item)
    ensures Diff.ProcessChanges(Diff.Evaluate(before + xs, before)) ==
            Diff.ItemChanges(AppendItems(before, xs, cfg).log[|xs|].indices, [], [], [], [])
  {
    var p := Diff.ProcessChanges(Diff.Evaluate(before + xs, before));
    var a := AppendItems(before, xs, cfg).log[|xs|].indices;
    AppendedChanges(before, xs);
    forall x ensures x in p.insertions <==> x in a {
      if |before| <= x < |before| + |xs| {
        assert a[x - |before|] == x;
      }
    }
    Diff.IncreasingUnique(p.insertions, a);
  }
}

=== FILE: listable.dfy ===
/**
  Two helpers of list components (`Listable` on iOS): the scroll offset of
  the first item matching a predicate, and the frame rule of `layout(size:)`.
 */
module Listable {
  import opened Wrappers
  import opened Items
  import ListAdapter

  /** Position of the first item satisfying `matches` (`filter(…).first`). */
  function FirstMatch(items: seq<Item>, matches: Item -> bool): (r: Option<nat>)
    ensures r.None? ==> forall j :: 0 <= j < |items| ==> !matches(items[j])
    ensures r.Some? ==> r.value < |items| && matches(items[r.value]) &&
                        forall j :: 0 <= j < r.value ==> !matches(items[j])
  {
    if items == [] then None
    else if matches(items[0]) then Some(0)
    else
      match FirstMatch(items[1..], matches)
      case None => None
      case Some(k) => Some(k + 1)
  }

  /**
    The slice `items[0...item.index]` traps unless the first matching item's
    stored index is a position of the list.
   */
  predicate ScrollableTo(items: seq<Item>, matches: Item -> bool) {
    var m := FirstMatch(items, matches);
    m.Some? ==> 0 <= items[m.value].index < |items|
  }

  /**
    `scrollTo(includeElement)`: 0 when no item matches; otherwise the heights
    of `items[0]` up to and including `items[k]`, where `k` is the stored
    index of the first matching item.
   */
  method ScrollTo(items: seq<Item>, matches: Item -> bool) returns (offset: int)
    requires ScrollableTo(items, matches)
    ensures FirstMatch(items, matches).None? ==> offset == 0
    ensures FirstMatch(items, matches).Some? ==>
              offset == HeightSum(items[..items[FirstMatch(items, matches).value].index + 1])
  {
    var found := -1;
    var i := 0;
    while i < |items| && found < 0
      invariant 0 <= i <= |items|
      invariant found < 0 ==> forall j :: 0 <= j < i ==> !matches(items[j])
      invariant found >= 0 ==> found < i && matches(items[found]) &&
                               forall j :: 0 <= j < found ==> !matches(items[j])
    {
      if matches(items[i]) {
        found := i;
      }
      i := i + 1;
    }
    if found < 0 {
      assert FirstMatch(items, matches).None?;
      return 0;
    }
    assert FirstMatch(items, matches) == Some(found);
    var end := items[found].index;
    offset := 0;
    var k := 0;
    while k <= end
      invariant 0 <= k <= end + 1
      invariant offset == HeightSum(items[..k])
    {
      assert items[..k + 1][..k] == items[..k];
      offset := offset + items[k].height;
      k := k + 1;
    }
  }

  /** `layout(size:)` on the table view's frame: width from `size`, height from the component's size if it has one. */
  function LayoutFrame(frame: Size, size: Size, componentSize: Option<Size>): (r: Size)
    ensures r.width == size.width
    ensures componentSize.None? ==> r.height == frame.height
    ensures componentSize.Some? ==> r.height == componentSize.value.height
  {
    match componentSize
    case None => frame.(width := size.width)
    case Some(s) => Size(size.width, s.height)
  }

  // ---------------------------------------------------------------- lemmas

  /** Laying out twice with the same size is laying out once. */
  lemma LayoutFrameIdempotent(frame: Size, size: Size, componentSize: Option<Size>)
    ensures LayoutFrame(LayoutFrame(frame, size, componentSize), size, componentSize) ==
            LayoutFrame(frame, size, componentSize)
  {
  }

  /** Height sums add up over concatenation. */
  lemma {:induction false} HeightSumAppend(a: seq<Item>, b: seq<Item>)
    ensures HeightSum(a + b) == HeightSum(a) + HeightSum(b)
    decreases |b|
  {
    if b == [] {
      assert a + b == a;
    } else {
      var b' := b[..|b| - 1];
      HeightSumAppend(a, b');
      assert (a + b)[..|a + b| - 1] == a + b';
    }
  }

  /** With non-negative heights, a longer prefix never has a smaller height sum. */
  lemma HeightSumMonotone(items: seq<Item>, i: nat, j: nat)
    requires i <= j <= |items|
    requires forall k :: 0 <= k < |items| ==> items[k].height >= 0
    ensures HeightSum(items[..i]) <= HeightSum(items[..j])
  {
    HeightSumAppend(items[..i], items[i..j]);
    assert items[..i] + items[i..j] == items[..j];
    NonNegativeSum(items[i..j]);
  }

  lemma {:induction false} NonNegativeSum(xs: seq<Item>)
    requires forall k :: 0 <= k < |xs| ==> xs[k].height >= 0
    ensures HeightSum(xs) >= 0
  {
    if xs != [] {
      NonNegativeSum(xs[..|xs| - 1]);
    }
  }

  /** Once `refreshIndexes` has run, every stored index is a position, so `scrollTo` cannot trap. */
  lemma RefreshedIsScrollable(items: seq<Item>, matches: Item -> bool)
    ensures ScrollableTo(ListAdapter.RefreshIndexes(items), matches)
    ensures var refreshed := ListAdapter.RefreshIndexes(items);
            var m := FirstMatch(refreshed, matches);
            m.Some? ==> refreshed[m.value].index == m.value
  {
  }
}

=== FILE: wrappers.dfy ===
/** Optional values, standing for Swift's `Optional`. */
module Wrappers {

  datatype Option<+T> = None | Some(value: T) {

    /** The wrapped value, or `default` when there is none (Swift's `??`). */
    function GetOr(default: T): T {
      match this
      case Some(v) => v
      case None => default
    }
  }
}
